=== FILE: README.md ===
# File-transfer gateway, modelled in Dafny

The gateway is a set of AWS Lambda request handlers behind an HTTP API.
They store files in one S3 bucket and hand them back out:

- the **upload** handler (`src/lambda/upload.py`) reads a JSON body whose
  `file_content` is base64 text and puts the decoded bytes under the name
  given in the `file-name` header;
- the **download** handler (`src/lambda/download.py`) percent-decodes the
  `file_key` path parameter, reads the object and returns its bytes as
  base64 text with `isBase64Encoded` set;
- the **presign** handler (`src/lambda/presign.py`) asks the S3 signer for a
  one-hour download URL, and also serves as the identity provider's
  pre-sign-up trigger, which it answers by returning the event;
- the **preflight** handler (`src/lambda/options_handler.py`) answers CORS
  `OPTIONS` requests with a constant response;
- the **legacy upload** handler (`src/lamda/upload.py`) stores the raw body
  under the header spelled exactly `file-name` and sends no CORS headers.

Each handler is a pure function. Its inputs are:

- the event fields it reads, each of which may be absent, JSON `null` or
  present;
- the `BUCKET_NAME` setting, as an `Option<string>`;
- the state of the S3 service (`Backend`: reachable, or failing with a
  message);
- the bucket's contents, as a `map<string, seq<byte>>`.

Its result is the proxy response, together with the store after the
call. An exception the handler does not catch becomes `Unhandled(error)`;
Lambda itself turns that into an invocation error. JSON parsing and URL
signing are oracles passed in as functions. The rest is modelled
concretely:

- base64 (section 4 of RFC 4648);
- UTF-8 (strict decoding, and CPython's `errors='replace'` decoding);
- `urllib.parse.unquote`, with a reference percent-encoder (sections 2.1
  and 2.3 of RFC 3986) as its partner;
- boto3's check, made before sending, that the bucket name and the key
  are not empty and that the body is not `None`.

Modules, one per file:

- `Wrappers`, `Bytes`: `Option`, `Result`, and the `byte` type.
- `Utf8`, `Base64`, `Percent`: the codecs and their round trips.
- `Http`: event fields, header lists, Python exceptions and response
  bodies.
- `ObjectStore`: `put_object` and `get_object`.
- `Upload`, `Download`, `Presign`, `Preflight`, `LegacyUpload`: the
  handlers.
- `Gateway`: one store shared by all handlers. This module holds the
  frame property that only uploads write, each with one put. It also
  holds the upload-then-download round trips.

Some points where the code decides what the design leaves open:

- The current upload handler refuses an empty `file_content` as missing,
  so the base64 of a zero-length file is rejected
  (`Upload.FileContentOfEncoding`). This does not keep every empty object
  out: Python's non-validating `b64decode` turns some non-empty texts,
  such as `'===='` or `'!!'`, into no bytes at all, and the handler then
  stores an empty object. The model decodes canonical text only, so under
  it no empty object is stored (`Upload.NoEmptyFileStored`).
- A request whose body is raw text, not JSON, is stored as it is by the
  legacy handler, but the current handler answers it with 500. Both are
  modelled, each separately
  (`LegacyUpload.StoresTextVerbatim`, `Gateway.CurrentUploadRefusesRawBody`).
- A download event with `pathParameters: null` raises `TypeError`. The
  handler's `except KeyError` does not catch it, so the invocation fails
  instead of answering 400.
- A presign event with `queryStringParameters: null` or `triggerSource:
  null` raises `AttributeError` in the same way.

## Model

| member | source | states |
|---|---|---|
| `Upload.Normalize` | src/lambda/upload.py:14 | the comprehension over the dict's items: the same pairs in the same order, each name lower-cased and each value kept, so every name is already in lower case |
| `Upload.FileName` | src/lambda/upload.py:13-18 | the file name is looked up among the items of the dict made from the header object (each key at its first position, with its last value), lower-cased; it is never empty; absent headers give the "Missing file-name header" error, `null` headers an `AttributeError` |
| `Upload.FileNameAnyCase` | src/lambda/upload.py:13-15 | of the header object's distinct keys, in the order they first appear, the last one that lower-cases to `file-name` supplies the name, with the value that key was last given |
| `Upload.RepeatedHeaderKey` | src/lambda/upload.py:14-15 | headers `File-Name: a`, `file-name: b`, `File-Name: c` give the name `b`, because the repeated key keeps its first position |
| `Upload.MissingFileNameFails` | src/lambda/upload.py:14-18 | without such a header the answer is the 500 envelope with "Missing file-name header" and the store is unchanged |
| `Upload.BodyText` | src/lambda/upload.py:20-23 | an absent body is `KeyError('body')`; an unflagged body is taken as it is; a flagged body succeeds only when it base64-decodes to the UTF-8 bytes of the result; a flagged body that is not base64 gives `Base64Error`, and one whose bytes are not UTF-8 gives `UnicodeDecodeError` |
| `Upload.TransportUnwrap` | src/lambda/upload.py:20-26 | the transport's base64 wrapping is removed exactly once: a wrapped JSON text and an unwrapped one both yield that JSON text |
| `Upload.FileContent` | src/lambda/upload.py:25-33 | succeeds iff `file_content` is non-empty canonical base64 text; the result is non-empty and re-encodes to that text; missing, empty or false values give the errors the handler raises |
| `Upload.FileContentOfEncoding` | src/lambda/upload.py:27-33 | the base64 of a non-empty file yields that file; the base64 of an empty file is refused as missing |
| `Upload.Prepare` | src/lambda/upload.py:11-33 | a missing bucket setting is `KeyError('BUCKET_NAME')` and comes first; a success carries the header's file name and bytes that the body's `file_content` decodes to; with the bucket set and the file name read, a body-reading error is passed on unchanged, and otherwise the outcome is exactly that of decoding `file_content`, so a decodable one gives success |
| `Upload.UploadSucceeds` | src/lambda/upload.py:11-48 | a `file-name` header, a JSON body whose `file_content` is the base64 of a non-empty file, a set bucket and a reachable S3 give 200 with the name echoed, and the store maps the name to the file's bytes |
| `Upload.ErrorResponse` | src/lambda/upload.py:49-62 | every error becomes status 500 with the three `*` CORS headers, a JSON content type and `{error: str(e)}` |
| `Upload.Commit` | src/lambda/upload.py:36-62 | once the event is read: 200 iff the put succeeds, with the store changed at the one key and the name echoed; an error while reading the event, or the put's own error, becomes the 500 envelope carrying `str(e)` of exactly that error, with the store unchanged |
| `Upload.Handle` | src/lambda/upload.py:8-62 | the status is 200 or 500, always with `*` CORS headers; 200 iff every step succeeds and the bucket name is non-empty and S3 is reachable; then the store is the old one with the file name mapped to the decoded bytes and the body echoes the name; otherwise the answer is the 500 envelope of the first error raised (while reading the event, or by the put) and the store is unchanged |
| `Upload.MissingBucketMessage` | src/lambda/upload.py:11 | without the bucket setting the answer is the 500 envelope whose text is `'BUCKET_NAME'`, the key in quotes, and nothing is stored |
| `Upload.NoEmptyFileStored` | src/lambda/upload.py:27-36 | a successful upload changes exactly one key, and stores a non-empty object there, given the canonical decoding of `file_content` |
| `Download.FileKey` | src/lambda/download.py:26-41 | the key is the percent-decoded `file_key`; a missing parameter is a `KeyError`, `null` path parameters a `TypeError` |
| `Download.KeyDecoding` | src/lambda/download.py:28-30 | a key without `%` is used as given; `%20` between ASCII parts that hold no other `%` becomes a space |
| `Download.FileResponse` | src/lambda/download.py:50-61 | 200, `isBase64Encoded`, `*` CORS, `application/octet-stream`, a Content-Disposition naming the decoded key, and a body that base64-decodes to the stored bytes |
| `Download.Failed` | src/lambda/download.py:16-24 | an error answer: the given status, the three `*` CORS headers and `{error: ...}` with the given text |
| `Download.Handle` | src/lambda/download.py:9-85 | a missing or empty bucket setting gives 500 before the key is read; a missing key gives 400; `null` path parameters are not caught; 200 iff the key is non-empty, S3 is reachable and the key is stored; 404 iff it is not stored; any other S3 error gives 500 with `str(e)` of that error; the 400 body says "Missing file_key path parameter" and the 404 body "File not found" |
| `Presign.IsSignUpTrigger` | src/lambda/presign.py:24 | the event is a trigger iff `triggerSource` is present and is `PreSignUp_` followed by anything |
| `Presign.GeneratePresignedUrl` | src/lambda/presign.py:6-18 | the URL iff the signer succeeds, `None` for any signer exception |
| `Presign.Answer` | src/lambda/presign.py:73-82 | a presign answer: the given status and body, the three `*` CORS headers, and every extra header (the 200's content type) keeps its value |
| `Presign.QueryFileName` | src/lambda/presign.py:44-46 | `file_name` from the query parameters when present, nothing when they or it are absent, `AttributeError` for `null` parameters |
| `Presign.Handle` | src/lambda/presign.py:20-82 | a `PreSignUp_` trigger is returned unchanged iff it is one, before any other check; then a missing bucket gives 500, a missing or empty `file_name` 400, a signer failure (bucket set, name non-empty) 500 with "Could not generate presigned URL"; a signer success for a set bucket and a non-empty name gives 200, and a 200 carries the URL the signer gave for that bucket, the name as given and 3600 seconds, with a JSON content type; every reply has `*` CORS |
| `Presign.SignerConsultedOnce` | src/lambda/presign.py:59 | the outcome depends on the signer only at (bucket, `file_name` as given, 3600) |
| `Presign.BucketCheckFirst` | src/lambda/presign.py:31-48 | without a bucket setting the answer is the bucket 500, whatever the query holds |
| `Preflight.Handle` | src/lambda/options_handler.py:3-16 | 200 with body `{}`, Allow-Origin `*`, Allow-Methods `GET,POST,OPTIONS` (listing GET, POST and OPTIONS), Allow-Headers listing `file-name` and `Authorization`, a JSON content type |
| `Preflight.TokensListed` | src/lambda/options_handler.py:11-12 | the methods and headers the browser needs are comma-separated items of the allowed lists |
| `Preflight.JoinedItemIsToken` | src/lambda/options_handler.py:11 | every item of a comma-joined list is one of its tokens |
| `Preflight.IgnoresEvent` | src/lambda/options_handler.py:3-16 | the response does not depend on the event |
| `LegacyUpload.FileName` | src/lamda/upload.py:11 | the file name is found iff some header is named exactly `file-name`; otherwise `KeyError('file-name')` |
| `LegacyUpload.BodyBytes` | src/lamda/upload.py:10-14 | a text body is sent as bytes that decode as UTF-8 to the text |
| `LegacyUpload.Failed` | src/lamda/upload.py:20-24 | the legacy error answer: 500, no headers, `{error: str(e)}` |
| `LegacyUpload.Handle` | src/lamda/upload.py:7-24 | the bucket setting, the body and the header are read in that order; 200 iff all are there, the name and the bucket are non-empty and S3 is reachable, and then the store maps the name to the body's UTF-8 bytes; 500 `{error: str(e)}` otherwise, with the store unchanged; no response headers; a failed put answers with `str(e)` of exactly the put's error |
| `LegacyUpload.CaseSensitiveHeader` | src/lamda/upload.py:11-24 | a header spelled any other way gives 500 `KeyError('file-name')` and stores nothing |
| `LegacyUpload.StoresTextVerbatim` | tests/test_lambdas_pytest.py:53-78 | a raw non-JSON body is accepted with 200 and stored as the UTF-8 bytes of the text |
| `ObjectStore.PutObject` | src/lambda/upload.py:36 | the put succeeds iff bucket, key and body are present and S3 is reachable; then the key holds the body and every other key is unchanged |
| `ObjectStore.GetObject` | src/lambda/download.py:46-47 | the stored bytes iff the key is stored and S3 is reachable; `NoSuchKey` iff it is not stored |
| `ObjectStore.GetAfterPut` | src/lambda/download.py:46 | a get after a put of the same key returns what was put |
| `Http.Lookup` | src/lambda/upload.py:14-15 | a header name maps to the value of its last occurrence, and is missing iff no pair has that name |
| `Http.Names` | src/lambda/upload.py:14 | the distinct names of the pairs, each once; a name is listed iff some pair has it; the first pair's name comes first |
| `Http.DictItems` | src/lambda/upload.py:14 | the dict `json.loads` builds from an object's members: one item per distinct key, in the order of `Http.Names`, and every lookup answers as a lookup in the members does (the last value wins) |
| `Http.LookupLast` | src/lambda/upload.py:14 | the last pair with a name supplies its value |
| `Http.CorsWith` | src/lambda/download.py:52-58 | the three CORS headers are `*`, and the extra headers keep their values |
| `Http.ErrorString` | src/lambda/upload.py:49-62 | `str(e)` is known exactly for `KeyError` (the key in quotes), `ValueError` and `ClientError` (their message), and left open for the library exceptions |
| `Base64.Encode` | src/lambda/download.py:59 | the text is empty iff the bytes are, and uses only alphabet characters and the pad; its inverse is `Base64.DecodeEncode` |
| `Base64.Decode` | src/lambda/upload.py:33 | text that decodes uses only alphabet characters and the pad, and is empty iff its bytes are; `Base64.EncodeDecode` and `Base64.DecodeLength` state what else it accepts |
| `Base64.EncodeLength` | src/lambda/download.py:59 | the text has four characters per three bytes, rounding up |
| `Base64.DecodeLength` | src/lambda/upload.py:33 | only text whose length is a multiple of four decodes, to three bytes per four characters less what the padding removes |
| `Base64.DecodeEncode` | src/lambda/download.py:59 | decoding the encoding of any bytes gives the bytes |
| `Base64.EncodeDecode` | src/lambda/upload.py:33 | text that decodes is the encoding of what it decodes to |
| `Utf8.Encode` | src/lamda/upload.py:14 | each character takes one to four bytes; `Utf8.DecodeStrictEncode` is its inverse |
| `Utf8.DecodeStrict` | src/lambda/upload.py:23 | a successful decoding has no more characters than bytes; `Utf8.EncodeDecodeStrict` is its inverse |
| `Utf8.DecodeReplace` | src/lambda/download.py:30 | the text has no more characters than there are bytes; `Utf8.DecodeReplaceAgreesWithStrict` relates it to strict decoding |
| `Utf8.DecodeStrictEncode` | src/lambda/upload.py:23 | strict decoding inverts encoding |
| `Utf8.EncodeDecodeStrict` | src/lambda/upload.py:23 | bytes that decode strictly are the encoding of their text |
| `Utf8.DecodeReplaceAgreesWithStrict` | src/lambda/download.py:30 | replacement decoding agrees with strict decoding on well-formed bytes |
| `Utf8.DecodeReplaceEncode` | src/lambda/download.py:30 | replacement decoding inverts encoding |
| `Percent.UnquoteBytes` | src/lambda/download.py:30 | the result is never longer than the input; `Percent.UnquotePercentEncodeBytes` is its inverse |
| `Percent.LowerCaseEscape` | src/lambda/download.py:30 | lower-case hex digits are decoded: the bytes of `%2f` unquote to the byte 0x2F |
| `Percent.StrayPercent` | src/lambda/download.py:30 | a `%` that starts no escape is kept: the bytes of `100%` unquote to themselves |
| `Percent.UnquoteRuns` | src/lambda/download.py:30 | the run-by-run path of `unquote` never lengthens its input: each ASCII run decodes to at most as many characters as it has, and other characters are kept one for one |
| `Percent.Unquote` | src/lambda/download.py:30 | the shortcut for text without `%` returns what the general run-by-run decoding returns, on every input, and the result is never longer than the input |
| `Percent.UnquoteRunsWithoutPercent` | src/lambda/download.py:28-30 | decoding text without `%` leaves it unchanged |
| `Percent.UnquotePercentEncodeBytes` | src/lambda/download.py:30 | byte-level unquoting inverts percent-encoding |
| `Percent.KeyRoundTrip` | src/lambda/download.py:28-30 | every key, percent-encoded by the reference encoder (every byte outside the unreserved set of RFC 3986 escaped), decodes back to the key |
| `Percent.UnquoteEscapedSpace` | src/lambda/download.py:29-30 | `%20` in ASCII text with no other `%` becomes a space and nothing else changes |
| `Gateway.Step` | src/lambda/upload.py:35-36 | only the two upload handlers change the store, at one key at most; every reply except the legacy upload's carries Allow-Origin `*`; legacy replies carry no headers |
| `Gateway.UploadThenDownload` | src/lambda/download.py:46-59 | after an upload with `file_content` `c`, a download whose key decodes to the file name answers 200 with body `c`, and `c` decodes to the stored bytes |
| `Gateway.UploadThenDownloadEncodedKey` | src/lambda/download.py:28-30 | the same holds when the key arrives percent-encoded |
| `Gateway.LatestUploadWins` | src/lambda/upload.py:36 | after two uploads of one name, the store has that one key added, and a download returns the second content |
| `Gateway.LegacyUploadThenDownload` | tests/test_lambdas_pytest.py:207-268 | a text stored by the legacy upload comes back from the download as base64 of its UTF-8 bytes, so decoding both gives the text |
| `Gateway.CurrentUploadRefusesRawBody` | src/lambda/upload.py:26 | a body that is not JSON gives 500 with the JSON error, and nothing is stored |

## Left out

- `Base64.Decode`: Python's `b64decode` does not validate. It drops
  characters outside the alphabet and accepts non-zero pad bits. The model
  decodes canonical RFC 4648 text only and treats every other text as a
  decoding error.
- `Upload.NoEmptyFileStored`: holds only for canonical `file_content`.
  Python's `b64decode` maps some truthy texts (`'===='`, `'!!'`, `'\n'`)
  to `b''`. The handler then stores an empty object with 200, which the
  canonical decoder of the model cannot produce.
- `Upload.FileName`: `str.lower` is modelled on ASCII letters only. No
  other character lower-cases to a single letter of `file-name`, so the
  lookup gives the same answer.
- JSON parsing (`json.loads`) is an oracle. The parsed body is only
  "not JSON", "not an object", or an object with some kind of
  `file_content` value. Response bodies are datatypes, not serialised
  JSON.
- URL signing (`generate_presigned_url`) is an oracle that returns a URL
  or an exception.
- `print`, `json.dumps(event)` and traceback logging have no effect on
  results and are not modelled.
- S3 is reduced to a map for the one configured bucket, plus a reachable
  or failing service. The bucket-name syntax rule is modelled only for
  the empty name. Key length limits, access control and versioning are
  not modelled.
- Concurrent invocations, timeouts and partial writes are infrastructure
  concerns and are not modelled.
- Events carry only the fields the handlers read. The presign pass-through
  returns those fields, where the real handler returns the whole event.
- `Http.ErrorString`: `str(e)` is modelled exactly for the errors with a
  message, and `Upload.MissingBucketMessage` ties it to a response. The
  text of other exceptions comes from libraries outside the model, so it
  stays symbolic as `StrOf(error)`.
- `isBase64Encoded` is a boolean. An absent flag is read as `false`, as
  `event.get(..., False)` does. Non-boolean truthy values are not modelled.
- Header values, query parameters and path parameters are strings. The
  handlers never see other JSON types there when they are called through
  the HTTP API. A `null` `file_key` would make `unquote` raise an uncaught
  `TypeError`; the model cannot express it.
- Bytes are a `byte` newtype over `0..255`, not `bv8`.

=== FILE: base64.dfy ===
/** The base 64 encoding of section 4 of RFC 4648 ("base64", alphabet of
    Table 1, `=` padding), the payload codec of the gateway: upload decodes
    `file_content` and the transport-wrapped body with it, download encodes
    the stored bytes with it. Decoding accepts exactly the canonical
    encodings, so `Decode` and `Encode` are mutually inverse. */
module Base64 {
  import opened Wrappers
  import opened Bytes

  /** The 64 characters of Table 1 of RFC 4648. */
  predicate IsAlphabetChar(c: char) {
    || 'A' <= c <= 'Z'
    || 'a' <= c <= 'z'
    || '0' <= c <= '9'
    || c == '+'
    || c == '/'
  }

  /** The pad character of section 3.2 of RFC 4648. */
  const Pad: char := '='

  /** A character that may appear in base64 text: the alphabet or the pad. */
  predicate IsTextChar(c: char) {
    IsAlphabetChar(c) || c == Pad
  }

  /** The character that encodes the 6-bit value `i`. */
  function CharOf(i: int): (c: char)
    requires 0 <= i < 64
    ensures IsAlphabetChar(c)
  {
    if i < 26 then ('A' as int + i) as char
    else if i < 52 then ('a' as int + (i - 26)) as char
    else if i < 62 then ('0' as int + (i - 52)) as char
    else if i == 62 then '+'
    else '/'
  }

  /** The 6-bit value an alphabet character encodes. */
  function IndexOf(c: char): (i: int)
    requires IsAlphabetChar(c)
    ensures 0 <= i < 64 && CharOf(i) == c
  {
    if 'A' <= c <= 'Z' then c as int - 'A' as int
    else if 'a' <= c <= 'z' then c as int - 'a' as int + 26
    else if '0' <= c <= '9' then c as int - '0' as int + 52
    else if c == '+' then 62
    else 63
  }

  /** Distinct 6-bit values are written with distinct characters. */
  lemma IndexOfCharOf(i: int)
    requires 0 <= i < 64
    ensures IndexOf(CharOf(i)) == i
  {
  }

  /** Three octets as four characters (section 4 of RFC 4648). */
  function EncodeGroup(b0: byte, b1: byte, b2: byte): string {
    var x0, x1, x2 := b0 as int, b1 as int, b2 as int;
    [CharOf(x0 / 4), CharOf(x0 % 4 * 16 + x1 / 16), CharOf(x1 % 16 * 4 + x2 / 64), CharOf(x2 % 64)]
  }

  /** A final quantum of one octet: two characters and two pads. */
  function EncodeOne(b0: byte): string {
    var x0 := b0 as int;
    [CharOf(x0 / 4), CharOf(x0 % 4 * 16), Pad, Pad]
  }

  /** A final quantum of two octets: three characters and one pad. */
  function EncodeTwo(b0: byte, b1: byte): string {
    var x0, x1 := b0 as int, b1 as int;
    [CharOf(x0 / 4), CharOf(x0 % 4 * 16 + x1 / 16), CharOf(x1 % 16 * 4), Pad]
  }

  /** Python's `base64.b64encode(b).decode('utf-8')`. */
  function Encode(b: seq<byte>): (s: string)
    ensures |s| == 0 <==> |b| == 0
    ensures forall i :: 0 <= i < |s| ==> IsTextChar(s[i])
    decreases |b|
  {
    if |b| == 0 then ""
    else if |b| == 1 then EncodeOne(b[0])
    else if |b| == 2 then EncodeTwo(b[0], b[1])
    else EncodeGroup(b[0], b[1], b[2]) + Encode(b[3..])
  }

  /** Four alphabet characters as three octets. */
  function DecodeGroup(s: string): (r: Option<seq<byte>>)
    requires |s| == 4
    ensures r.Some? ==> |r.value| == 3
  {
    if IsAlphabetChar(s[0]) && IsAlphabetChar(s[1]) && IsAlphabetChar(s[2]) && IsAlphabetChar(s[3]) then
      var c0, c1, c2, c3 := IndexOf(s[0]), IndexOf(s[1]), IndexOf(s[2]), IndexOf(s[3]);
      Some([(c0 * 4 + c1 / 16) as byte, (c1 % 16 * 16 + c2 / 4) as byte, (c2 % 4 * 64 + c3) as byte])
    else
      None
  }

  /** The last quantum, which may be padded; the bits the pads leave over
      must be zero (section 3.5 of RFC 4648), so that only canonical text
      decodes. */
  function DecodeFinal(s: string): (r: Option<seq<byte>>)
    requires |s| == 4
    ensures r.Some? ==> 1 <= |r.value| <= 3
  {
    if !IsAlphabetChar(s[0]) || !IsAlphabetChar(s[1]) then None
    else
      var c0, c1 := IndexOf(s[0]), IndexOf(s[1]);
      if s[2] == Pad && s[3] == Pad then
        if c1 % 16 == 0 then Some([(c0 * 4 + c1 / 16) as byte]) else None
      else if IsAlphabetChar(s[2]) && s[3] == Pad then
        var c2 := IndexOf(s[2]);
        if c2 % 4 == 0 then Some([(c0 * 4 + c1 / 16) as byte, (c1 % 16 * 16 + c2 / 4) as byte]) else None
      else
        DecodeGroup(s)
  }

  /** Decoding of canonical base64 text; `None` for everything else (a
      length that is not a multiple of four, a character outside the
      alphabet, a misplaced pad, non-zero pad bits). */
  function Decode(s: string): (r: Option<seq<byte>>)
    ensures r.Some? ==> (|s| == 0 <==> |r.value| == 0)
    ensures r.Some? ==> forall i :: 0 <= i < |s| ==> IsTextChar(s[i])
    decreases |s|
  {
    if |s| == 0 then Some([])
    else if |s| < 4 then None
    else if |s| == 4 then DecodeFinal(s)
    else
      match DecodeGroup(s[..4])
      case None => None
      case Some(group) =>
        match Decode(s[4..])
        case None => None
        case Some(rest) => Some(group + rest)
  }

  /** Encoding takes four characters for every three octets or part of
      three. */
  lemma {:induction false} EncodeLength(b: seq<byte>)
    ensures |Encode(b)| == (|b| + 2) / 3 * 4
    decreases |b|
  {
    if |b| > 2 {
      EncodeLength(b[3..]);
      assert (|b| + 2) / 3 == (|b[3..]| + 2) / 3 + 1;
    }
  }

  /** Only text whose length is a multiple of four decodes, four characters
      for every three octets or part of three. */
  lemma {:induction false} DecodeLength(s: string)
    requires Decode(s).Some?
    ensures |s| % 4 == 0 && |s| == (|Decode(s).value| + 2) / 3 * 4
    decreases |s|
  {
    if |s| == 4 {
      DecodeOfLastQuantum(s);
      OneQuantum(|Decode(s).value|);
    } else if |s| > 4 {
      DecodeSplit(s);
      var rest := Decode(s[4..]).value;
      DecodeLength(s[4..]);
      LengthStep(|s|, |Decode(s).value|, |rest|);
    }
  }

  /** One more quantum of text is three more octets. */
  lemma LengthStep(textLength: int, octets: int, restOctets: nat)
    requires textLength - 4 == (restOctets + 2) / 3 * 4 && octets == 3 + restOctets
    ensures textLength % 4 == 0 && textLength == (octets + 2) / 3 * 4
  {
    QuantumCount(restOctets);
    var q := (restOctets + 2) / 3;
    assert textLength == (q + 1) * 4;
  }

  lemma OneQuantum(n: int)
    requires 1 <= n <= 3
    ensures (n + 2) / 3 * 4 == 4
  {
  }

  /** Text longer than one quantum decodes as its first group followed by
      the rest. */
  lemma DecodeSplit(s: string)
    requires |s| > 4 && Decode(s).Some?
    ensures DecodeGroup(s[..4]).Some? && Decode(s[4..]).Some?
    ensures Decode(s).value == DecodeGroup(s[..4]).value + Decode(s[4..]).value
  {
  }

  lemma QuantumCount(n: nat)
    ensures (3 + n + 2) / 3 == (n + 2) / 3 + 1
  {
  }

  /** Three octets in front of a non-empty rest are encoded as one group. */
  lemma EncodeSplit(g: seq<byte>, rest: seq<byte>)
    requires |g| == 3 && |rest| > 0
    ensures Encode(g + rest) == EncodeGroup(g[0], g[1], g[2]) + Encode(rest)
  {
    var b := g + rest;
    assert b[0] == g[0] && b[1] == g[1] && b[2] == g[2] && b[3..] == rest;
  }

  lemma DecodeGroupOfEncodeGroup(b0: byte, b1: byte, b2: byte)
    ensures DecodeGroup(EncodeGroup(b0, b1, b2)) == Some([b0, b1, b2])
  {
    var x0, x1, x2 := b0 as int, b1 as int, b2 as int;
    var d0, d1, d2, d3 := x0 / 4, x0 % 4 * 16 + x1 / 16, x1 % 16 * 4 + x2 / 64, x2 % 64;
    GroupDigits(x0, x1, x2);
    var s := EncodeGroup(b0, b1, b2);
    assert s == [CharOf(d0), CharOf(d1), CharOf(d2), CharOf(d3)];
    IndexOfCharOf(d0);
    IndexOfCharOf(d1);
    IndexOfCharOf(d2);
    IndexOfCharOf(d3);
    assert DecodeGroup(s) == Some([(d0 * 4 + d1 / 16) as byte, (d1 % 16 * 16 + d2 / 4) as byte, (d2 % 4 * 64 + d3) as byte]);
  }

  /** The sextets of three octets give the octets back. */
  lemma GroupDigits(x0: int, x1: int, x2: int)
    requires 0 <= x0 < 256 && 0 <= x1 < 256 && 0 <= x2 < 256
    ensures var d0, d1, d2, d3 := x0 / 4, x0 % 4 * 16 + x1 / 16, x1 % 16 * 4 + x2 / 64, x2 % 64;
      && 0 <= d0 < 64 && 0 <= d1 < 64 && 0 <= d2 < 64 && 0 <= d3 < 64
      && d0 * 4 + d1 / 16 == x0 && d1 % 16 * 16 + d2 / 4 == x1 && d2 % 4 * 64 + d3 == x2
  {
    var q0, r0 := x0 / 4, x0 % 4;
    var q1, r1 := x1 / 16, x1 % 16;
    var q2, r2 := x2 / 64, x2 % 64;
    assert x0 == 4 * q0 + r0 && 0 <= r0 < 4 && 0 <= q0 < 64;
    assert x1 == 16 * q1 + r1 && 0 <= r1 < 16 && 0 <= q1 < 16;
    assert x2 == 64 * q2 + r2 && 0 <= r2 < 64 && 0 <= q2 < 4;
    assert (r0 * 16 + q1) / 16 == r0 && (r0 * 16 + q1) % 16 == q1;
    assert (r1 * 4 + q2) / 4 == r1 && (r1 * 4 + q2) % 4 == q2;
  }

  lemma DecodeFinalOfEncodeOne(b0: byte)
    ensures DecodeFinal(EncodeOne(b0)) == Some([b0])
  {
    var x0 := b0 as int;
    var d0, d1 := x0 / 4, x0 % 4 * 16;
    assert 0 <= d0 < 64 && 0 <= d1 < 64 && d1 % 16 == 0 && d0 * 4 + d1 / 16 == x0;
    var s := EncodeOne(b0);
    assert s == [CharOf(d0), CharOf(d1), Pad, Pad];
    IndexOfCharOf(d0);
    IndexOfCharOf(d1);
  }

  lemma DecodeFinalOfEncodeTwo(b0: byte, b1: byte)
    ensures DecodeFinal(EncodeTwo(b0, b1)) == Some([b0, b1])
  {
    var x0, x1 := b0 as int, b1 as int;
    var d0, d1, d2 := x0 / 4, x0 % 4 * 16 + x1 / 16, x1 % 16 * 4;
    GroupDigits(x0, x1, 0);
    assert d2 % 4 == 0;
    var s := EncodeTwo(b0, b1);
    assert s == [CharOf(d0), CharOf(d1), CharOf(d2), Pad];
    IndexOfCharOf(d0);
    IndexOfCharOf(d1);
    IndexOfCharOf(d2);
    assert s[2] != Pad;
    assert DecodeFinal(s) == Some([(d0 * 4 + d1 / 16) as byte, (d1 % 16 * 16 + d2 / 4) as byte]);
  }

  /** Round trip: every byte sequence, including the empty one, decodes
      back from its encoding. */
  lemma {:induction false} DecodeEncode(b: seq<byte>)
    ensures Decode(Encode(b)) == Some(b)
    decreases |b|
  {
    if |b| == 0 {
    } else if |b| == 1 {
      DecodeEncodeOne(b);
    } else if |b| == 2 {
      DecodeEncodeTwo(b);
    } else if |b| == 3 {
      DecodeEncodeThree(b);
    } else {
      DecodeEncode(b[3..]);
      DecodeEncodeStep(b);
    }
  }

  lemma DecodeEncodeOne(b: seq<byte>)
    requires |b| == 1
    ensures Decode(Encode(b)) == Some(b)
  {
    var s := EncodeOne(b[0]);
    assert Encode(b) == s;
    DecodeOfLastQuantum(s);
    DecodeFinalOfEncodeOne(b[0]);
    assert b == [b[0]];
  }

  lemma DecodeEncodeTwo(b: seq<byte>)
    requires |b| == 2
    ensures Decode(Encode(b)) == Some(b)
  {
    var s := EncodeTwo(b[0], b[1]);
    assert Encode(b) == s;
    DecodeOfLastQuantum(s);
    DecodeFinalOfEncodeTwo(b[0], b[1]);
    assert b == [b[0], b[1]];
  }

  lemma DecodeEncodeThree(b: seq<byte>)
    requires |b| == 3
    ensures Decode(Encode(b)) == Some(b)
  {
    var s := EncodeGroup(b[0], b[1], b[2]);
    assert Encode(b) == s by {
      EncodeOfThree(b);
    }
    assert Decode(s) == Some([b[0], b[1], b[2]]) by {
      DecodeOfLastQuantum(s);
      DecodeFinalOfEncodeGroup(b[0], b[1], b[2]);
    }
    assert b == [b[0], b[1], b[2]];
  }

  /** Text of one quantum is decoded as the last one. */
  lemma DecodeOfLastQuantum(s: string)
    requires |s| == 4
    ensures Decode(s) == DecodeFinal(s)
  {
  }

  lemma EncodeOfThree(b: seq<byte>)
    requires |b| == 3
    ensures Encode(b) == EncodeGroup(b[0], b[1], b[2])
  {
    var g := EncodeGroup(b[0], b[1], b[2]);
    assert |b[3..]| == 0;
    assert Encode(b[3..]) == [];
    assert g + [] == g;
  }

  lemma DecodeFinalOfEncodeGroup(b0: byte, b1: byte, b2: byte)
    ensures DecodeFinal(EncodeGroup(b0, b1, b2)) == Some([b0, b1, b2])
  {
    var s := EncodeGroup(b0, b1, b2);
    assert IsAlphabetChar(s[2]) && IsAlphabetChar(s[3]);
    assert s[3] != Pad;
    DecodeGroupOfEncodeGroup(b0, b1, b2);
  }

  /** A full group in front of a decodable tail decodes to the group's
      octets followed by the tail's. */
  lemma DecodeGroupThen(g: string, t: string)
    requires |g| == 4 && |t| > 0 && DecodeGroup(g).Some? && Decode(t).Some?
    ensures Decode(g + t) == Some(DecodeGroup(g).value + Decode(t).value)
  {
    assert (g + t)[..4] == g;
    assert (g + t)[4..] == t;
  }

  /** A full leading group followed by a tail that round-trips. */
  lemma DecodeEncodeStep(b: seq<byte>)
    requires |b| > 3 && Decode(Encode(b[3..])) == Some(b[3..])
    ensures Decode(Encode(b)) == Some(b)
  {
    var g := EncodeGroup(b[0], b[1], b[2]);
    assert Encode(b) == g + Encode(b[3..]);
    DecodeGroupOfEncodeGroup(b[0], b[1], b[2]);
    DecodeGroupThen(g, Encode(b[3..]));
    PrefixThree(b);
  }

  lemma PrefixThree(b: seq<byte>)
    requires |b| >= 3
    ensures b == [b[0], b[1], b[2]] + b[3..]
  {
  }

  lemma EncodeGroupOfDecodeGroup(s: string)
    requires |s| == 4 && DecodeGroup(s).Some?
    ensures var g := DecodeGroup(s).value; EncodeGroup(g[0], g[1], g[2]) == s
  {
    var c0, c1, c2, c3 := IndexOf(s[0]), IndexOf(s[1]), IndexOf(s[2]), IndexOf(s[3]);
    var g := DecodeGroup(s).value;
    var x0, x1, x2 := g[0] as int, g[1] as int, g[2] as int;
    assert x0 / 4 == c0 && x0 % 4 * 16 + x1 / 16 == c1;
    assert x1 % 16 * 4 + x2 / 64 == c2 && x2 % 64 == c3;
  }

  lemma EncodeOfDecodeFinal(s: string)
    requires |s| == 4 && DecodeFinal(s).Some?
    ensures Encode(DecodeFinal(s).value) == s
  {
    var g := DecodeFinal(s).value;
    if |g| == 1 {
      var c0, c1 := IndexOf(s[0]), IndexOf(s[1]);
      var x0 := g[0] as int;
      assert x0 / 4 == c0 && x0 % 4 * 16 == c1;
    } else if |g| == 2 {
      var c0, c1, c2 := IndexOf(s[0]), IndexOf(s[1]), IndexOf(s[2]);
      var x0, x1 := g[0] as int, g[1] as int;
      assert x0 / 4 == c0 && x0 % 4 * 16 + x1 / 16 == c1 && x1 % 16 * 4 == c2;
    } else {
      EncodeGroupOfDecodeGroup(s);
      assert Encode(g) == EncodeGroup(g[0], g[1], g[2]);
    }
  }

  /** Canonicity: text that decodes is the encoding of what it decodes to,
      so no two texts decode to the same bytes. */
  lemma {:induction false} EncodeDecode(s: string)
    requires Decode(s).Some?
    ensures Encode(Decode(s).value) == s
    decreases |s|
  {
    if |s| == 4 {
      EncodeOfDecodeFinal(s);
    } else if |s| > 4 {
      DecodeSplit(s);
      var g, rest := DecodeGroup(s[..4]).value, Decode(s[4..]).value;
      EncodeGroupOfDecodeGroup(s[..4]);
      EncodeDecode(s[4..]);
      EncodeSplit(g, rest);
      assert s[..4] + s[4..] == s;
    }
  }
}

=== FILE: download.dfy ===
/** The download handler of `src/lambda/download.py`: it checks the bucket
    setting, takes `file_key` from the path parameters, percent-decodes
    it, reads the object and answers with its bytes as base64 text. It
    reads the store and never writes it. */
module Download {
  import opened Wrappers
  import opened Bytes
  import opened Http
  import opened ObjectStore
  import Base64
  import Percent

  /** The part of the proxy event the handler reads: the path parameters
      as a dict. */
  datatype Event = Event(pathParameters: Field<map<string, string>>)

  const KeyMissing := "Missing file_key path parameter"
  const NotFound := "File not found"
  const OctetStream := "application/octet-stream"

  /** Lines 27-41: the decoded key, a `KeyError` for a missing parameter
      (answered with 400), or the `TypeError` of subscripting `null`,
      which the `except KeyError` does not catch. */
  function FileKey(e: Event): (r: Result<string, PyError>)
    ensures e.pathParameters.Absent? ==> r == Failure(KeyError("pathParameters"))
    ensures e.pathParameters.Null? ==> r == Failure(TypeError)
    ensures e.pathParameters.Present? && "file_key" !in e.pathParameters.value ==> r == Failure(KeyError("file_key"))
    ensures r.Success? <==> e.pathParameters.Present? && "file_key" in e.pathParameters.value
    ensures r.Success? ==> r.value == Percent.Unquote(e.pathParameters.value["file_key"])
  {
    match e.pathParameters
    case Absent => Failure(KeyError("pathParameters"))
    case Null => Failure(TypeError)
    case Present(params) =>
      if "file_key" !in params then Failure(KeyError("file_key"))
      else Success(Percent.Unquote(params["file_key"]))
  }

  /** The 200 response of lines 50-61 for the object `key` holding `bytes`. */
  function FileResponse(key: string, bytes: seq<byte>): (r: Response)
    ensures r.statusCode == 200 && r.isBase64Encoded && HasWildcardCors(r.headers)
    ensures Lookup(r.headers, ContentType) == Some(OctetStream)
    ensures Lookup(r.headers, ContentDisposition) == Some("attachment; filename=\"" + key + "\"")
    ensures r.body.RawText? && Base64.Decode(r.body.text) == Some(bytes)
  {
    var extra := [(ContentType, OctetStream), (ContentDisposition, "attachment; filename=\"" + key + "\"")];
    assert ContentType[8] != ContentDisposition[8];
    assert Lookup(extra, ContentType) == Some(OctetStream);
    Base64.DecodeEncode(bytes);
    Response(200, CorsWith(extra), RawText(Base64.Encode(bytes)), true)
  }

  /** A JSON error response with the wildcard headers. */
  function Failed(status: int, text: ErrorText): (r: Response)
    ensures r.statusCode == status && HasWildcardCors(r.headers) && r.body == ErrorJson(text) && !r.isBase64Encoded
  {
    WildcardCorsHolds();
    Response(status, WildcardCors, ErrorJson(text), false)
  }

  /** `lambda_handler`. The bucket check comes first, then the key, then
      the store: 500, 400, then 200, 404 or 500. */
  function Handle(e: Event, bucket: Option<string>, backend: Backend, store: Store): (r: Reply)
    ensures r.Http? ==> HasWildcardCors(r.response.headers)
    ensures r.Http? ==> r.response.statusCode in {200, 400, 404, 500}
    ensures bucket.None? || bucket == Some("") ==> r == Http(Failed(500, Says(BucketMissing)))
    ensures r.Unhandled? <==> bucket.Some? && bucket.value != "" && e.pathParameters.Null?
    ensures r.Http? && r.response.statusCode == 400 <==>
      bucket.Some? && bucket.value != "" && FileKey(e).Failure? && FileKey(e).error.KeyError?
    ensures r.Http? && r.response.statusCode == 200 <==>
      bucket.Some? && bucket.value != "" && FileKey(e).Success? && FileKey(e).value != ""
      && backend.Reachable? && FileKey(e).value in store
    ensures r.Http? && r.response.statusCode == 404 <==>
      bucket.Some? && bucket.value != "" && FileKey(e).Success? && FileKey(e).value != ""
      && backend.Reachable? && FileKey(e).value !in store
    ensures r.Http? && r.response.statusCode == 200 ==>
      r.response == FileResponse(FileKey(e).value, store[FileKey(e).value])
    ensures r.Http? && r.response.statusCode == 400 ==> r.response == Failed(400, Says(KeyMissing))
    ensures r.Http? && r.response.statusCode == 404 ==> r.response == Failed(404, Says(NotFound))
    ensures bucket.Some? && bucket.value != "" && FileKey(e).Success? && r.Http? && r.response.statusCode == 500 ==>
      var got := GetObject(store, backend, bucket.value, FileKey(e).value);
      got.Failure? && got.error != NoSuchKey && r.response == Failed(500, StrOf(got.error))
  {
    if bucket.None? || bucket.value == "" then
      Http(Failed(500, Says(BucketMissing)))
    else
      match FileKey(e)
      case Failure(err) =>
        if err.KeyError? then Http(Failed(400, Says(KeyMissing))) else Unhandled(err)
      case Success(key) =>
        match GetObject(store, backend, bucket.value, key)
        case Success(bytes) => Http(FileResponse(key, bytes))
        case Failure(NoSuchKey) => Http(Failed(404, Says(NotFound)))
        case Failure(err) => Http(Failed(500, StrOf(err)))
  }

  /** Line 30 on the path key: a key without `%` is looked up as given,
      and an escaped space between two ASCII parts becomes a space. */
  lemma KeyDecoding(key: string, a: string, b: string)
    requires forall i :: 0 <= i < |a| ==> Percent.IsAsciiChar(a[i])
    requires forall i :: 0 <= i < |b| ==> Percent.IsAsciiChar(b[i])
    requires '%' !in a && '%' !in b
    ensures '%' !in key ==> FileKey(Event(Present(map["file_key" := key]))) == Success(key)
    ensures FileKey(Event(Present(map["file_key" := a + "%20" + b]))) == Success(a + " " + b)
  {
    Percent.UnquoteEscapedSpace(a, b);
  }
}

=== FILE: gateway.dfy ===
/** The five handlers as steps on one object store: each request is
    dispatched to exactly one handler, and the lemmas here relate what
    the handlers do to each other — only uploads write, each with one
    put; what an upload stored, a download returns. */
module Gateway {
  import opened Wrappers
  import opened Bytes
  import opened Http
  import opened ObjectStore
  import Base64
  import Utf8
  import Percent
  import Upload
  import LegacyUpload
  import Download
  import Presign
  import Preflight

  /** A request, by the handler that serves it. */
  datatype Request =
    | UploadRequest(upload: Upload.Event)
    | LegacyUploadRequest(legacy: LegacyUpload.Event)
    | DownloadRequest(download: Download.Event)
    | PresignRequest(presign: Presign.Event)
    | PreflightRequest

  /** What an invocation sees besides its event: the `BUCKET_NAME`
      setting, the store service's state, and the JSON and signing
      oracles. */
  datatype Env = Env(bucket: Option<string>, backend: Backend, parse: Upload.Parser, sign: Presign.Signer)

  /** What an invocation returns: a proxy reply, or (only for a
      pre-sign-up trigger) the event itself. */
  type Answer = Presign.Outcome

  /** One invocation: the answer and the store after it. Only the two
      upload handlers change the store, each at one key at most; every
      handler but the legacy upload attaches `*` cross-origin headers. */
  function Step(req: Request, env: Env, store: Store): (r: (Answer, Store))
    ensures !req.UploadRequest? && !req.LegacyUploadRequest? ==> r.1 == store
    ensures r.1 == store || exists key :: key in r.1 && r.1 == store[key := r.1[key]]
    ensures r.0.Replied? && r.0.reply.Http? && !req.LegacyUploadRequest? ==>
      Lookup(r.0.reply.response.headers, AllowOrigin) == Some("*")
    ensures r.0.Replied? && r.0.reply.Http? && !req.LegacyUploadRequest? && !req.PreflightRequest? ==>
      HasWildcardCors(r.0.reply.response.headers)
    ensures r.0.Replied? && r.0.reply.Http? && req.LegacyUploadRequest? ==> r.0.reply.response.headers == []
  {
    match req
    case UploadRequest(e) =>
      var out := Upload.Handle(e, env.bucket, env.backend, env.parse, store);
      assert out.response.statusCode == 200 ==> out.store == store[Upload.Prepare(e, env.bucket, env.parse).value.0 := Upload.Prepare(e, env.bucket, env.parse).value.1];
      (Presign.Replied(Http(out.response)), out.store)
    case LegacyUploadRequest(e) =>
      var out := LegacyUpload.Handle(e, env.bucket, env.backend, store);
      (Presign.Replied(Http(out.response)), out.store)
    case DownloadRequest(e) =>
      (Presign.Replied(Download.Handle(e, env.bucket, env.backend, store)), store)
    case PresignRequest(e) =>
      (Presign.Handle(e, env.bucket, env.sign), store)
    case PreflightRequest =>
      (Presign.Replied(Http(Preflight.Handle(req))), store)
  }

  /** The download request for a key as it appears in the URL path. */
  function DownloadOf(pathKey: string): Download.Event {
    Download.Event(Present(map["file_key" := pathKey]))
  }

  /** Round trip: after a successful upload whose `file_content` was the
      text `c`, a download whose path key decodes to the uploaded file
      name answers 200 with body `c`, which decodes to the stored bytes. */
  lemma UploadThenDownload(ue: Upload.Event, env: Env, store: Store, text: string, c: string, pathKey: string)
    requires Upload.Handle(ue, env.bucket, env.backend, env.parse, store).response.statusCode == 200
    requires Upload.BodyText(ue) == Success(text) && env.parse(text) == Upload.JsonObject(Upload.Text(c))
    requires Upload.FileName(ue).Success? && Percent.Unquote(pathKey) == Upload.FileName(ue).value
    ensures var stored := Upload.Handle(ue, env.bucket, env.backend, env.parse, store).store;
      var d := Download.Handle(DownloadOf(pathKey), env.bucket, env.backend, stored);
      && d.Http? && d.response.statusCode == 200
      && d.response.body == RawText(c)
      && Base64.Decode(c) == Some(stored[Upload.FileName(ue).value])
  {
    var (name, bytes) := Upload.Prepare(ue, env.bucket, env.parse).value;
    var stored := Upload.Handle(ue, env.bucket, env.backend, env.parse, store).store;
    assert stored == store[name := bytes];
    assert Upload.FileContent(env.parse(text)) == Success(bytes);
    assert Base64.Encode(bytes) == c;
    var d := Download.Handle(DownloadOf(pathKey), env.bucket, env.backend, stored);
    assert Download.FileKey(DownloadOf(pathKey)) == Success(name);
    var body := Download.FileResponse(name, bytes).body;
    Base64.EncodeDecode(body.text);
  }

  /** The same round trip with the key percent-encoded in the URL, as a
      browser sends a name with spaces or non-ASCII characters. */
  lemma UploadThenDownloadEncodedKey(ue: Upload.Event, env: Env, store: Store, text: string, c: string)
    requires Upload.Handle(ue, env.bucket, env.backend, env.parse, store).response.statusCode == 200
    requires Upload.BodyText(ue) == Success(text) && env.parse(text) == Upload.JsonObject(Upload.Text(c))
    ensures Upload.FileName(ue).Success?
    ensures var stored := Upload.Handle(ue, env.bucket, env.backend, env.parse, store).store;
      var d := Download.Handle(DownloadOf(Percent.PercentEncode(Upload.FileName(ue).value)), env.bucket, env.backend, stored);
      d.Http? && d.response.statusCode == 200 && d.response.body == RawText(c)
  {
    var name := Upload.FileName(ue).value;
    Percent.KeyRoundTrip(name);
    UploadThenDownload(ue, env, store, text, c, Percent.PercentEncode(name));
  }

  /** Re-uploading a name replaces the object: a download afterwards sees
      only the latest content. */
  lemma LatestUploadWins(u1: Upload.Event, u2: Upload.Event, env: Env, store: Store, text: string, c: string)
    requires Upload.Handle(u1, env.bucket, env.backend, env.parse, store).response.statusCode == 200
    requires var s1 := Upload.Handle(u1, env.bucket, env.backend, env.parse, store).store;
      Upload.Handle(u2, env.bucket, env.backend, env.parse, s1).response.statusCode == 200
    requires Upload.FileName(u1) == Upload.FileName(u2)
    requires Upload.BodyText(u2) == Success(text) && env.parse(text) == Upload.JsonObject(Upload.Text(c))
    ensures Upload.FileName(u2).Success?
    ensures var s1 := Upload.Handle(u1, env.bucket, env.backend, env.parse, store).store;
      var s2 := Upload.Handle(u2, env.bucket, env.backend, env.parse, s1).store;
      var name := Upload.FileName(u2).value;
      && s2.Keys == s1.Keys == store.Keys + {name}
      && Download.Handle(DownloadOf(Percent.PercentEncode(name)), env.bucket, env.backend, s2).response.body == RawText(c)
  {
    var s1 := Upload.Handle(u1, env.bucket, env.backend, env.parse, store).store;
    UploadThenDownloadEncodedKey(u2, env, s1, text, c);
  }

  /** A text body stored by the legacy upload comes back from the download
      handler as base64 of its UTF-8 bytes, so decoding both layers gives
      the text again. */
  lemma LegacyUploadThenDownload(fileName: string, text: string, bucket: string, store: Store)
    requires fileName != "" && bucket != "" && '%' !in fileName
    ensures var le := LegacyUpload.Event(Present([(FileNameHeader, fileName)]), Present(text));
      var stored := LegacyUpload.Handle(le, Some(bucket), Reachable, store).store;
      var d := Download.Handle(DownloadOf(fileName), Some(bucket), Reachable, stored);
      && d.Http? && d.response.statusCode == 200 && d.response.body.RawText?
      && Base64.Decode(d.response.body.text).Some?
      && Utf8.DecodeStrict(Base64.Decode(d.response.body.text).value) == Some(text)
  {
    LegacyUpload.StoresTextVerbatim(text, fileName, bucket, store);
    var le := LegacyUpload.Event(Present([(FileNameHeader, fileName)]), Present(text));
    var stored := LegacyUpload.Handle(le, Some(bucket), Reachable, store).store;
    assert Download.FileKey(DownloadOf(fileName)) == Success(fileName);
  }

  /** The current upload handler does not accept what the legacy one did:
      a body that is not JSON ends in a 500 and nothing is stored. */
  lemma CurrentUploadRefusesRawBody(fileName: string, text: string, env: Env, store: Store)
    requires env.bucket.Some? && fileName != "" && env.parse(text) == Upload.NotJson
    ensures var ue := Upload.Event(Present([(FileNameHeader, fileName)]), Present(text), false);
      var out := Upload.Handle(ue, env.bucket, env.backend, env.parse, store);
      && out.response.statusCode == 500 && out.store == store
      && out.response.body == ErrorJson(StrOf(JsonDecodeError))
  {
    var ue := Upload.Event(Present([(FileNameHeader, fileName)]), Present(text), false);
    Upload.FileNameAnyCase(ue, 0);
  }
}

=== FILE: http.dfy ===
/** The Lambda proxy envelope every handler speaks: inbound event fields,
    header lists, response bodies (as data rather than serialised JSON),
    the cross-origin headers, and the Python exceptions whose text ends up
    in an `error` body. */
module Http {
  import opened Wrappers

  /** A key of the inbound JSON event: missing, present with JSON `null`,
      or present with a value. The distinction matters because the source
      reads some fields with `event['k']` (missing raises `KeyError`) and
      others with `event.get('k', default)`. */
  datatype Field<+T> = Absent | Null | Present(value: T)

  /** The members of a JSON object in the order they were written. A key
      may be written more than once; the dict `json.loads` builds from them
      is `DictItems`. */
  type Pairs = seq<(string, string)>

  /** `dict(pairs).get(name)`: the value of the last pair named `name`. */
  function Lookup(pairs: Pairs, name: string): (r: Option<string>)
    ensures r.None? <==> forall i :: 0 <= i < |pairs| ==> pairs[i].0 != name
    ensures r.Some? ==> exists i :: 0 <= i < |pairs| && pairs[i] == (name, r.value)
    decreases |pairs|
  {
    if |pairs| == 0 then None
    else if pairs[|pairs| - 1].0 == name then Some(pairs[|pairs| - 1].1)
    else Lookup(pairs[..|pairs| - 1], name)
  }

  /** The distinct names of `pairs`, each where it first occurs: the key
      order of a Python dict filled from them. */
  function Names(pairs: Pairs): (r: seq<string>)
    ensures forall i, j :: 0 <= i < j < |r| ==> r[i] != r[j]
    ensures forall name :: name in r <==> exists k :: 0 <= k < |pairs| && pairs[k].0 == name
    ensures |pairs| > 0 ==> |r| > 0 && r[0] == pairs[0].0
    decreases |pairs|
  {
    if |pairs| == 0 then []
    else
      var front := pairs[..|pairs| - 1];
      var known := Names(front);
      var last := pairs[|pairs| - 1].0;
      assert forall k :: 0 <= k < |front| ==> front[k] == pairs[k];
      if last in known then known else known + [last]
  }

  /** `dict(pairs).items()`: each key once, at the place it was first
      written, with the value it was last given. A lookup in the dict
      answers as a lookup in the pairs does. */
  function DictItems(pairs: Pairs): (r: Pairs)
    ensures |r| == |Names(pairs)|
    ensures forall i :: 0 <= i < |r| ==> r[i].0 == Names(pairs)[i]
    ensures forall name :: Lookup(r, name) == Lookup(pairs, name)
  {
    var names := Names(pairs);
    var r := seq(|names|, i requires 0 <= i < |names| => (names[i], LastValue(pairs, names[i])));
    forall name ensures Lookup(r, name) == Lookup(pairs, name) {
      DictLookup(pairs, names, r, name);
    }
    r
  }

  /** The value last given to a name the pairs mention. */
  function LastValue(pairs: Pairs, name: string): (v: string)
    requires name in Names(pairs)
    ensures Lookup(pairs, name) == Some(v)
  {
    Lookup(pairs, name).value
  }

  lemma DictLookup(pairs: Pairs, names: seq<string>, r: Pairs, name: string)
    requires names == Names(pairs) && |r| == |names|
    requires forall i :: 0 <= i < |r| ==> r[i] == (names[i], LastValue(pairs, names[i]))
    ensures Lookup(r, name) == Lookup(pairs, name)
  {
    if name in names {
      var i :| 0 <= i < |names| && names[i] == name;
      LookupLast(r, i, name);
    }
  }

  /** The last pair named `name` wins, whatever came before it. */
  lemma {:induction false} LookupLast(pairs: Pairs, i: int, name: string)
    requires 0 <= i < |pairs| && pairs[i].0 == name
    requires forall j :: i < j < |pairs| ==> pairs[j].0 != name
    ensures Lookup(pairs, name) == Some(pairs[i].1)
    decreases |pairs|
  {
    if i < |pairs| - 1 {
      LookupLast(pairs[..|pairs| - 1], i, name);
    }
  }

  /** The Python exceptions the handlers raise or meet. Only the first
      four have a text the handlers fix; the others carry library wording
      that the model leaves open. */
  datatype PyError =
    | KeyError(key: string)           // `event['k']`, `os.environ['K']`, `body['k']` on a missing key
    | ValueError(message: string)     // raised by the upload handler itself
    | ClientError(detail: string)     // an error answer of the object store service
    | NoSuchKey                       // the store's answer for an absent key
    | ParamValidationError            // boto3 refused a parameter before sending
    | TypeError                       // an operation on a value of the wrong JSON type
    | AttributeError                  // a method called on JSON `null`
    | Base64Error                     // `base64.b64decode` refused its input
    | UnicodeDecodeError              // `bytes.decode('utf-8')` refused its input
    | JsonDecodeError                 // `json.loads` refused its input

  /** `str(e)` where the handlers determine it: a `KeyError` prints its key
      in quotes, the others print their message. */
  function ErrorString(e: PyError): (r: Option<string>)
    ensures r.Some? <==> e.KeyError? || e.ValueError? || e.ClientError?
  {
    match e
    case KeyError(k) => Some("'" + k + "'")
    case ValueError(m) => Some(m)
    case ClientError(d) => Some(d)
    case _ => None
  }

  /** The text of an `error` body: a literal of the handler, or `str(e)`. */
  datatype ErrorText = Says(text: string) | StrOf(error: PyError)

  /** A response body, by the JSON document it serialises. */
  datatype Body =
    | ErrorJson(error: ErrorText)                 // {"error": ...}
    | UploadedJson(message: string, fileName: string)  // {"message": ..., "file_name": ...}
    | UrlJson(url: string)                        // {"url": ...}
    | EmptyJson                                   // {}
    | RawText(text: string)                       // a body that is not JSON

  /** A proxy response. `isBase64Encoded` false stands for the key being
      left out, which API Gateway reads the same way. */
  datatype Response = Response(statusCode: int, headers: Pairs, body: Body, isBase64Encoded: bool)

  /** What a handler invocation ends with: a response, or an exception
      that escaped the handler. */
  datatype Reply = Http(response: Response) | Unhandled(error: PyError)

  const AllowOrigin := "Access-Control-Allow-Origin"
  const AllowHeaders := "Access-Control-Allow-Headers"
  const AllowMethods := "Access-Control-Allow-Methods"
  const ContentType := "Content-Type"
  const ContentDisposition := "Content-Disposition"
  const JsonMediaType := "application/json"

  /** Texts several handlers share: the header naming an upload, the
      upload success message, and the error both the download and the
      presign handler give without a bucket setting. */
  const FileNameHeader := "file-name"
  const UploadedMessage := "File uploaded successfully"
  const BucketMissing := "Bucket name environment variable is missing"

  /** The wildcard cross-origin headers of the upload, download and
      presign responses. */
  const WildcardCors: Pairs := [(AllowOrigin, "*"), (AllowHeaders, "*"), (AllowMethods, "*")]

  /** Every cross-origin header a browser checks says `*`. */
  predicate HasWildcardCors(headers: Pairs) {
    && Lookup(headers, AllowOrigin) == Some("*")
    && Lookup(headers, AllowHeaders) == Some("*")
    && Lookup(headers, AllowMethods) == Some("*")
  }

  predicate IsCorsName(name: string) {
    name == AllowOrigin || name == AllowHeaders || name == AllowMethods
  }

  /** The three names differ (at their 22nd character). */
  lemma CorsNamesDistinct()
    ensures AllowOrigin != AllowHeaders && AllowOrigin != AllowMethods && AllowHeaders != AllowMethods
  {
    assert AllowOrigin[21] == 'O' && AllowHeaders[21] == 'H' && AllowMethods[21] == 'M';
  }

  lemma WildcardCorsHolds()
    ensures HasWildcardCors(WildcardCors)
  {
    CorsNamesDistinct();
    var w := WildcardCors;
    var w2: Pairs := [(AllowOrigin, "*"), (AllowHeaders, "*")];
    var w1: Pairs := [(AllowOrigin, "*")];
    assert w[..2] == w2 && w2[..1] == w1;
    assert Lookup(w1, AllowOrigin) == Some("*");
    assert Lookup(w2, AllowOrigin) == Lookup(w1, AllowOrigin);
    assert Lookup(w, AllowOrigin) == Lookup(w2, AllowOrigin);
    assert Lookup(w2, AllowHeaders) == Some("*");
    assert Lookup(w, AllowHeaders) == Lookup(w2, AllowHeaders);
  }

  /** The wildcard headers, followed by `extra` naming other headers. */
  function CorsWith(extra: Pairs): (h: Pairs)
    requires forall i :: 0 <= i < |extra| ==> !IsCorsName(extra[i].0)
    ensures HasWildcardCors(h)
    ensures forall i :: 0 <= i < |extra| ==> Lookup(h, extra[i].0) == Lookup(extra, extra[i].0)
  {
    WildcardCorsHolds();
    assert forall i :: 0 <= i < |extra| ==> extra[i].0 != AllowOrigin && extra[i].0 != AllowHeaders && extra[i].0 != AllowMethods by {
      forall i | 0 <= i < |extra| ensures !IsCorsName(extra[i].0) { }
    }
    LookupSkipsTail(WildcardCors, extra, AllowOrigin);
    LookupSkipsTail(WildcardCors, extra, AllowHeaders);
    LookupSkipsTail(WildcardCors, extra, AllowMethods);
    LookupTailAll(WildcardCors, extra);
    WildcardCors + extra
  }

  lemma LookupTailAll(head: Pairs, extra: Pairs)
    ensures forall i :: 0 <= i < |extra| ==> Lookup(head + extra, extra[i].0) == Lookup(extra, extra[i].0)
  {
    forall i | 0 <= i < |extra|
      ensures Lookup(head + extra, extra[i].0) == Lookup(extra, extra[i].0)
    {
      LookupInTail(head, extra, extra[i].0);
    }
  }

  /** A name the tail does not mention is looked up in the head. */
  lemma {:induction false} LookupSkipsTail(head: Pairs, tail: Pairs, name: string)
    requires forall i :: 0 <= i < |tail| ==> tail[i].0 != name
    ensures Lookup(head + tail, name) == Lookup(head, name)
    decreases |tail|
  {
    if |tail| == 0 {
      assert head + tail == head;
    } else {
      assert (head + tail)[..|head + tail| - 1] == head + tail[..|tail| - 1];
      LookupSkipsTail(head, tail[..|tail| - 1], name);
    }
  }

  /** A name the tail mentions is looked up in the tail. */
  lemma {:induction false} LookupInTail(head: Pairs, tail: Pairs, name: string)
    requires exists i :: 0 <= i < |tail| && tail[i].0 == name
    ensures Lookup(head + tail, name) == Lookup(tail, name)
    decreases |tail|
  {
    var last := |tail| - 1;
    if tail[last].0 != name {
      assert (head + tail)[..|head + tail| - 1] == head + tail[..last];
      var i :| 0 <= i < |tail| && tail[i].0 == name;
      assert tail[..last][i].0 == name;
      LookupInTail(head, tail[..last], name);
    }
  }
}

=== FILE: legacy_upload.dfy ===
/** The older upload handler of `src/lamda/upload.py`: the body is stored
    as it arrives (boto3 sends a text body as its UTF-8 bytes), the file
    name comes from the header spelled exactly `file-name`, and responses
    carry no headers at all. */
module LegacyUpload {
  import opened Wrappers
  import opened Bytes
  import opened Http
  import opened ObjectStore
  import Utf8

  /** The parts of the proxy event the handler reads. */
  datatype Event = Event(headers: Field<Pairs>, body: Field<string>)

  /** Line 11: `event['headers']['file-name']`, case-sensitive. */
  function FileName(e: Event): (r: Result<string, PyError>)
    ensures e.headers.Absent? ==> r == Failure(KeyError("headers"))
    ensures e.headers.Null? ==> r == Failure(TypeError)
    ensures e.headers.Present? ==>
      (r.Success? <==> exists i :: 0 <= i < |e.headers.value| && e.headers.value[i].0 == FileNameHeader)
    ensures e.headers.Present? && r.Failure? ==> r == Failure(KeyError(FileNameHeader))
    ensures r.Success? ==> exists i :: 0 <= i < |e.headers.value| && e.headers.value[i] == (FileNameHeader, r.value)
  {
    match e.headers
    case Absent => Failure(KeyError("headers"))
    case Null => Failure(TypeError)
    case Present(h) => Lookup(h, FileNameHeader).ToResult(KeyError(FileNameHeader))
  }

  /** The bytes boto3 sends for the body: a text body as UTF-8, nothing
      for `null`. */
  function BodyBytes(body: Field<string>): (r: Option<seq<byte>>)
    requires !body.Absent?
    ensures r.Some? <==> body.Present?
    ensures r.Some? ==> Utf8.DecodeStrict(r.value) == Some(body.value)
  {
    match body
    case Null => None
    case Present(text) =>
      Utf8.DecodeStrictEncode(text);
      Some(Utf8.Encode(text))
  }

  /** `lambda_handler`: lines 9-11 read the bucket, the body and the file
      name in that order, line 14 is the one put; a 200 or 500 response
      without headers. */
  function Handle(e: Event, bucket: Option<string>, backend: Backend, store: Store): (out: Outcome)
    ensures out.response.headers == [] && !out.response.isBase64Encoded
    ensures out.response.statusCode == 200 || out.response.statusCode == 500
    ensures out.response.statusCode == 500 <==> out.response.body.ErrorJson?
    ensures out.response.statusCode == 500 ==> out.store == store
    ensures bucket.None? ==> out.response.body == ErrorJson(StrOf(KeyError("BUCKET_NAME")))
    ensures bucket.Some? && e.body.Absent? ==> out.response.body == ErrorJson(StrOf(KeyError("body")))
    ensures bucket.Some? && !e.body.Absent? && FileName(e).Failure? ==>
      out.response.body == ErrorJson(StrOf(FileName(e).error))
    ensures out.response.statusCode == 200 <==>
      && bucket.Some? && bucket.value != "" && e.body.Present? && FileName(e).Success?
      && FileName(e).value != "" && backend.Reachable?
    ensures out.response.statusCode == 200 ==>
      && out.store == store[FileName(e).value := Utf8.Encode(e.body.value)]
      && out.response.body == UploadedJson(UploadedMessage, FileName(e).value)
    ensures bucket.Some? && !e.body.Absent? && FileName(e).Success? ==>
      var put := PutObject(store, backend, bucket.value, FileName(e).value, BodyBytes(e.body));
      put.Failure? ==> out == Outcome(Failed(put.error), store)
  {
    if bucket.None? then Outcome(Failed(KeyError("BUCKET_NAME")), store)
    else if e.body.Absent? then Outcome(Failed(KeyError("body")), store)
    else
      match FileName(e)
      case Failure(err) => Outcome(Failed(err), store)
      case Success(name) =>
        match PutObject(store, backend, bucket.value, name, BodyBytes(e.body))
        case Failure(err) => Outcome(Failed(err), store)
        case Success(store') => Outcome(Response(200, [], UploadedJson(UploadedMessage, name), false), store')
  }

  /** The 500 response of lines 21-24. */
  function Failed(err: PyError): (r: Response)
    ensures r.statusCode == 500 && r.headers == [] && r.body == ErrorJson(StrOf(err))
  {
    Response(500, [], ErrorJson(StrOf(err)), false)
  }

  /** The header name is matched exactly: a header spelled in any other
      capitalisation, if it is the only one, makes the upload fail with
      `KeyError('file-name')` and store nothing. */
  lemma CaseSensitiveHeader(name: string, value: string, body: string, bucket: string, backend: Backend, store: Store)
    requires name != FileNameHeader
    ensures var out := Handle(Event(Present([(name, value)]), Present(body)), Some(bucket), backend, store);
      out.response.statusCode == 500 && out.store == store
      && out.response.body == ErrorJson(StrOf(KeyError(FileNameHeader)))
  {
    assert FileName(Event(Present([(name, value)]), Present(body))).Failure?;
  }

  /** A raw, non-JSON text body is accepted and stored byte for byte as its
      UTF-8 encoding, so reading the object back as UTF-8 gives the text. */
  lemma StoresTextVerbatim(text: string, fileName: string, bucket: string, store: Store)
    requires fileName != "" && bucket != ""
    ensures var out := Handle(Event(Present([(FileNameHeader, fileName)]), Present(text)), Some(bucket), Reachable, store);
      && out.response.statusCode == 200
      && out.response.body == UploadedJson(UploadedMessage, fileName)
      && fileName in out.store
      && Utf8.DecodeStrict(out.store[fileName]) == Some(text)
  {
    var e := Event(Present([(FileNameHeader, fileName)]), Present(text));
    assert Lookup(e.headers.value, FileNameHeader) == Some(fileName);
    Utf8.DecodeStrictEncode(text);
  }
}

=== FILE: object_store.dfy ===
/** The object store behind the handlers: the contents of the configured
    bucket, and the two boto3 calls the handlers make on it, reduced to
    what the handlers can observe. */
module ObjectStore {
  import opened Wrappers
  import opened Bytes
  import opened Http

  /** The bucket's objects by key. */
  type Store = map<string, seq<byte>>

  /** What an upload invocation ends with: its response, and the bucket's
      contents after it. */
  datatype Outcome = Outcome(response: Response, store: Store)

  /** The state of the store service for one invocation: answering, or
      failing every call with an error of its own (a missing bucket,
      denied access, a timeout). */
  datatype Backend = Reachable | Failing(detail: string)

  /** `put_object(Bucket=bucket, Key=key, Body=body)`. boto3 refuses an
      empty bucket name, an empty key and a `None` body before sending
      anything; otherwise a reachable service stores `body` at `key`,
      replacing any object already there. */
  function PutObject(store: Store, backend: Backend, bucket: string, key: string, body: Option<seq<byte>>)
    : (r: Result<Store, PyError>)
    ensures r.Success? <==> bucket != "" && key != "" && body.Some? && backend.Reachable?
    ensures r.Success? ==> key in r.value && r.value[key] == body.value
    ensures r.Success? ==> forall k :: k in store && k != key ==> k in r.value && r.value[k] == store[k]
    ensures r.Success? ==> r.value.Keys == store.Keys + {key}
  {
    if bucket == "" || key == "" || body.None? then Failure(ParamValidationError)
    else if backend.Failing? then Failure(ClientError(backend.detail))
    else Success(store[key := body.value])
  }

  /** `get_object(Bucket=bucket, Key=key)['Body'].read()`. An empty key is
      refused by boto3; an absent key is the service's `NoSuchKey`. */
  function GetObject(store: Store, backend: Backend, bucket: string, key: string): (r: Result<seq<byte>, PyError>)
    ensures r.Success? <==> bucket != "" && key != "" && backend.Reachable? && key in store
    ensures r.Success? ==> r.value == store[key]
    ensures r == Failure(NoSuchKey) <==> bucket != "" && key != "" && backend.Reachable? && key !in store
  {
    if bucket == "" || key == "" then Failure(ParamValidationError)
    else if backend.Failing? then Failure(ClientError(backend.detail))
    else if key !in store then Failure(NoSuchKey)
    else Success(store[key])
  }

  /** Reading back what a put stored gives exactly the stored bytes. */
  lemma GetAfterPut(store: Store, backend: Backend, bucket: string, key: string, body: seq<byte>)
    requires PutObject(store, backend, bucket, key, Some(body)).Success?
    ensures GetObject(PutObject(store, backend, bucket, key, Some(body)).value, backend, bucket, key) == Success(body)
  {
  }
}

=== FILE: options_handler.dfy ===
/** The preflight handler of `src/lambda/options_handler.py`: one fixed
    answer to every cross-origin preflight request. */
module Preflight {
  import opened Wrappers
  import opened Http

  /** The request headers the preflight answer allows, in order. */
  const AllowedHeaderNames: seq<string> :=
    ["Content-Type", "X-Amz-Date", "Authorization", "X-Api-Key", "X-Amz-Security-Token", "file-name"]

  /** "Content-Type,X-Amz-Date,Authorization,X-Api-Key,X-Amz-Security-Token,file-name" */
  const AllowedHeaderList := JoinComma(AllowedHeaderNames)
  const AllowedMethodList := "GET,POST,OPTIONS"

  /** `token` is one of the comma-separated items of `list`. */
  predicate HasToken(list: string, token: string) {
    exists i, j :: 0 <= i <= j <= |list| && list[i..j] == token
      && (i == 0 || list[i - 1] == ',') && (j == |list| || list[j] == ',')
  }

  /** The items of `items` separated by commas. */
  function JoinComma(items: seq<string>): string
    decreases |items|
  {
    if |items| == 0 then ""
    else if |items| == 1 then items[0]
    else items[0] + "," + JoinComma(items[1..])
  }

  /** Every item of a comma-joined list is one of its tokens, provided no
      item contains a comma itself. */
  lemma {:induction false} JoinedItemIsToken(items: seq<string>, k: int)
    requires 0 <= k < |items|
    requires forall n :: 0 <= n < |items| ==> ',' !in items[n]
    ensures HasToken(JoinComma(items), items[k])
    decreases |items|
  {
    if |items| == 1 {
      FirstToken(items[0], "");
      assert items[0] + "" == items[0] == JoinComma(items);
    } else if k == 0 {
      FirstToken(items[0], "," + JoinComma(items[1..]));
      assert JoinComma(items) == items[0] + ("," + JoinComma(items[1..]));
    } else {
      JoinedItemIsToken(items[1..], k - 1);
      LaterToken(items[0] + ",", JoinComma(items[1..]), items[k]);
    }
  }

  /** The text before the first comma is a token. */
  lemma FirstToken(first: string, rest: string)
    requires rest == "" || rest[0] == ','
    ensures HasToken(first + rest, first)
  {
    var list := first + rest;
    assert list[0..|first|] == first;
  }

  /** A token of the text after a comma is a token of the whole. */
  lemma LaterToken(head: string, rest: string, token: string)
    requires |head| > 0 && head[|head| - 1] == ','
    requires HasToken(rest, token)
    ensures HasToken(head + rest, token)
  {
    var i, j :| 0 <= i <= j <= |rest| && rest[i..j] == token
      && (i == 0 || rest[i - 1] == ',') && (j == |rest| || rest[j] == ',');
    var list, d := head + rest, |head|;
    assert list[d + i..d + j] == rest[i..j];
    assert list[d + i - 1] == ',';
    assert d + j == |list| || list[d + j] == ',';
  }

  /** `lambda_handler`: 200, the permissive headers and the body `{}`,
      whatever the event. */
  function Handle<E>(event: E): (r: Response)
    ensures r.statusCode == 200 && r.body == EmptyJson && !r.isBase64Encoded
    ensures Lookup(r.headers, AllowOrigin) == Some("*")
    ensures Lookup(r.headers, AllowMethods) == Some(AllowedMethodList)
    ensures HasToken(AllowedMethodList, "GET") && HasToken(AllowedMethodList, "POST") && HasToken(AllowedMethodList, "OPTIONS")
    ensures Lookup(r.headers, AllowHeaders) == Some(AllowedHeaderList)
    ensures HasToken(AllowedHeaderList, "file-name") && HasToken(AllowedHeaderList, "Authorization")
    ensures Lookup(r.headers, ContentType) == Some(JsonMediaType)
  {
    var h := [(AllowOrigin, "*"), (AllowHeaders, AllowedHeaderList), (AllowMethods, AllowedMethodList),
              (ContentType, JsonMediaType)];
    PreflightLookups();
    TokensListed();
    Response(200, h, EmptyJson, false)
  }

  lemma PreflightLookups()
    ensures var h := [(AllowOrigin, "*"), (AllowHeaders, AllowedHeaderList), (AllowMethods, AllowedMethodList),
                      (ContentType, JsonMediaType)];
      && Lookup(h, AllowOrigin) == Some("*")
      && Lookup(h, AllowHeaders) == Some(AllowedHeaderList)
      && Lookup(h, AllowMethods) == Some(AllowedMethodList)
      && Lookup(h, ContentType) == Some(JsonMediaType)
  {
    CorsNamesDistinct();
    var h := [(AllowOrigin, "*"), (AllowHeaders, AllowedHeaderList), (AllowMethods, AllowedMethodList),
              (ContentType, JsonMediaType)];
    assert ContentType[0] != AllowOrigin[0] && ContentType[0] != AllowHeaders[0] && ContentType[0] != AllowMethods[0];
    var h3, h2, h1 := h[..3], h[..2], h[..1];
    assert h3[..2] == h2 && h2[..1] == h1;
    assert Lookup(h1, AllowOrigin) == Some("*");
    assert Lookup(h2, AllowOrigin) == Lookup(h1, AllowOrigin);
    assert Lookup(h3, AllowOrigin) == Lookup(h2, AllowOrigin);
    assert Lookup(h, AllowOrigin) == Lookup(h3, AllowOrigin);
    assert Lookup(h2, AllowHeaders) == Some(AllowedHeaderList);
    assert Lookup(h3, AllowHeaders) == Lookup(h2, AllowHeaders);
    assert Lookup(h, AllowHeaders) == Lookup(h3, AllowHeaders);
  }

  lemma TokensListed()
    ensures HasToken(AllowedMethodList, "GET") && HasToken(AllowedMethodList, "POST") && HasToken(AllowedMethodList, "OPTIONS")
    ensures HasToken(AllowedHeaderList, "file-name") && HasToken(AllowedHeaderList, "Authorization")
  {
    var m := AllowedMethodList;
    assert m[0..3] == "GET" && m[3] == ',';
    assert m[4..8] == "POST" && m[3] == ',' && m[8] == ',';
    assert m[9..16] == "OPTIONS" && m[8] == ',';
    var names := AllowedHeaderNames;
    assert forall n :: 0 <= n < |names| ==> ',' !in names[n];
    JoinedItemIsToken(names, 2);
    JoinedItemIsToken(names, 5);
  }

  /** The answer does not depend on the request at all. */
  lemma IgnoresEvent<E>(e1: E, e2: E)
    ensures Handle(e1) == Handle(e2)
  {
  }
}

=== FILE: percent.dfy ===
/** Percent-decoding of section 2.1 of RFC 3986 as the download handler
    applies it to the key it takes from the URL path: Python's
    `urllib.parse.unquote` with its defaults (UTF-8, `errors='replace'`).
    A reference percent-encoder is its partner: decoding undoes it for
    every key. */
module Percent {
  import opened Bytes
  import Utf8

  /** The byte of `%`. */
  const PercentByte: byte := 0x25

  predicate IsHexDigitByte(b: byte) {
    || 0x30 <= b <= 0x39  // 0-9
    || 0x41 <= b <= 0x46  // A-F
    || 0x61 <= b <= 0x66  // a-f
  }

  function HexValue(b: byte): (v: int)
    requires IsHexDigitByte(b)
    ensures 0 <= v < 16
  {
    if b <= 0x39 then b as int - 0x30
    else if b <= 0x46 then b as int - 0x41 + 10
    else b as int - 0x61 + 10
  }

  /** `urllib.parse.unquote_to_bytes`: each `%` followed by two hex digits
      (either case) becomes the octet they spell; any other `%` stays as
      it is, and so does every other byte. */
  function UnquoteBytes(b: seq<byte>): (r: seq<byte>)
    ensures |r| <= |b|
    decreases |b|
  {
    if |b| == 0 then []
    else if b[0] == PercentByte && |b| >= 3 && IsHexDigitByte(b[1]) && IsHexDigitByte(b[2]) then
      [(HexValue(b[1]) * 16 + HexValue(b[2])) as byte] + UnquoteBytes(b[3..])
    else
      [b[0]] + UnquoteBytes(b[1..])
  }

  predicate IsAsciiChar(c: char) {
    (c as int) < 0x80
  }

  /** Length of the longest all-ASCII prefix of `s`. */
  function AsciiRun(s: string): (n: nat)
    ensures n <= |s|
    ensures forall i :: 0 <= i < n ==> IsAsciiChar(s[i])
    ensures n < |s| ==> !IsAsciiChar(s[n])
  {
    if |s| == 0 || !IsAsciiChar(s[0]) then 0 else 1 + AsciiRun(s[1..])
  }

  /** The general path of `unquote`: maximal runs of ASCII characters are
      encoded, unquoted to bytes and decoded with U+FFFD replacement, each
      run on its own; every non-ASCII character is kept as it is. */
  function UnquoteRuns(s: string): (r: string)
    ensures |r| <= |s|
    decreases |s|
  {
    if |s| == 0 then []
    else if !IsAsciiChar(s[0]) then [s[0]] + UnquoteRuns(s[1..])
    else
      var n := AsciiRun(s);
      Utf8.EncodeAsciiLength(s[..n]);
      Utf8.DecodeReplace(UnquoteBytes(Utf8.Encode(s[..n]))) + UnquoteRuns(s[n..])
  }

  /** `urllib.parse.unquote(s)`, which returns a string without `%`
      untouched before doing any of the work. The shortcut changes no
      result: the general path would also return such text unchanged. */
  function Unquote(s: string): (r: string)
    ensures r == UnquoteRuns(s)
    ensures |r| <= |s|
  {
    if '%' !in s then
      UnquoteRunsWithoutPercent(s);
      s
    else
      UnquoteRuns(s)
  }

  /** Run-by-run decoding leaves text without `%` as it is. */
  lemma {:induction false} UnquoteRunsWithoutPercent(s: string)
    requires '%' !in s
    ensures UnquoteRuns(s) == s
    decreases |s|
  {
    if |s| > 0 {
      var n := if IsAsciiChar(s[0]) then AsciiRun(s) else 1;
      var head, rest := s[..n], s[n..];
      assert s == head + rest && '%' !in head && '%' !in rest by {
        SplitWithoutPercent(s, n);
      }
      UnquoteRunsWithoutPercent(rest);
      if IsAsciiChar(s[0]) {
        RunWithoutPercent(head);
      } else {
        assert head == [s[0]];
      }
    }
  }

  /** Both parts of text without `%` are without `%`. */
  lemma SplitWithoutPercent(s: string, n: nat)
    requires '%' !in s && n <= |s|
    ensures s == s[..n] + s[n..] && '%' !in s[..n] && '%' !in s[n..]
  {
    assert forall i :: 0 <= i < n ==> s[..n][i] == s[i];
    assert forall i :: 0 <= i < |s| - n ==> s[n..][i] == s[n + i];
  }

  /** One run without `%` decodes to itself. */
  lemma RunWithoutPercent(run: string)
    requires '%' !in run
    ensures Utf8.DecodeReplace(UnquoteBytes(Utf8.Encode(run))) == run
  {
    Utf8.AsciiByteAbsent(run, '%');
    UnquoteBytesWithoutPercent(Utf8.Encode(run));
    Utf8.DecodeReplaceEncode(run);
  }

  /** On ASCII text `Unquote` is a single run: unquote the bytes, then
      decode them. */
  lemma UnquoteAscii(s: string)
    requires |s| > 0 && forall i :: 0 <= i < |s| ==> IsAsciiChar(s[i])
    ensures Unquote(s) == Utf8.DecodeReplace(UnquoteBytes(Utf8.Encode(s)))
  {
    var n := AsciiRun(s);
    assert n == |s|;
    assert s[..n] == s && s[n..] == [];
    assert UnquoteRuns(s) == Utf8.DecodeReplace(UnquoteBytes(Utf8.Encode(s))) + UnquoteRuns([]);
  }

  /** Bytes left unencoded by the reference encoder: the unreserved
      characters of section 2.3 of RFC 3986 (ALPHA, DIGIT, `-`, `.`, `_`,
      `~`). */
  predicate IsUnreservedByte(b: byte) {
    || 0x41 <= b <= 0x5A
    || 0x61 <= b <= 0x7A
    || 0x30 <= b <= 0x39
    || b == 0x2D || b == 0x2E || b == 0x5F || b == 0x7E
  }

  /** Upper-case hex digit for a 4-bit value, as section 2.1 of RFC 3986
      recommends. */
  function HexDigit(v: int): (b: byte)
    requires 0 <= v < 16
    ensures IsHexDigitByte(b) && HexValue(b) == v
  {
    if v < 10 then (0x30 + v) as byte else (0x41 + v - 10) as byte
  }

  /** The reference encoder on bytes: unreserved bytes as they are, every
      other byte as `%` and two hex digits. */
  function PercentEncodeBytes(b: seq<byte>): (r: seq<byte>)
    ensures forall i :: 0 <= i < |r| ==> Utf8.IsAsciiByte(r[i])
    decreases |b|
  {
    if |b| == 0 then []
    else if IsUnreservedByte(b[0]) then [b[0]] + PercentEncodeBytes(b[1..])
    else [PercentByte, HexDigit(b[0] as int / 16), HexDigit(b[0] as int % 16)] + PercentEncodeBytes(b[1..])
  }

  /** The reference encoder on keys: percent-encode the UTF-8 bytes of the
      key. The result is ASCII; `/` is among the bytes it escapes. */
  function PercentEncode(k: string): string {
    Utf8.AsciiChars(PercentEncodeBytes(Utf8.Encode(k)))
  }

  /** Unquoting bytes undoes the reference byte encoder. */
  lemma {:induction false} UnquotePercentEncodeBytes(b: seq<byte>)
    ensures UnquoteBytes(PercentEncodeBytes(b)) == b
    decreases |b|
  {
    if |b| > 0 {
      UnquotePercentEncodeBytes(b[1..]);
      var e := PercentEncodeBytes(b);
      if IsUnreservedByte(b[0]) {
        assert e == [b[0]] + PercentEncodeBytes(b[1..]);
        assert e[1..] == PercentEncodeBytes(b[1..]);
      } else {
        var hi, lo := b[0] as int / 16, b[0] as int % 16;
        assert e[..3] == [PercentByte, HexDigit(hi), HexDigit(lo)];
        assert e[3..] == PercentEncodeBytes(b[1..]);
        assert (hi * 16 + lo) as byte == b[0];
      }
      assert b == [b[0]] + b[1..];
    }
  }

  /** Key round trip: a key of any Unicode characters, spaces and reserved
      characters included, survives percent-encoding followed by the
      download handler's decoding. */
  lemma KeyRoundTrip(k: string)
    ensures Unquote(PercentEncode(k)) == k
  {
    var x := PercentEncodeBytes(Utf8.Encode(k));
    var e := PercentEncode(k);
    Utf8.EncodeAsciiChars(x);
    UnquotePercentEncodeBytes(Utf8.Encode(k));
    Utf8.DecodeReplaceEncode(k);
    if |e| == 0 {
      assert |Utf8.Encode(k)| == 0;
    } else {
      assert forall i :: 0 <= i < |e| ==> IsAsciiChar(e[i]) by {
        AsciiCharsAreAscii(x);
      }
      UnquoteAscii(e);
    }
  }

  lemma {:induction false} AsciiCharsAreAscii(b: seq<byte>)
    requires forall i :: 0 <= i < |b| ==> Utf8.IsAsciiByte(b[i])
    ensures forall i :: 0 <= i < |b| ==> IsAsciiChar(Utf8.AsciiChars(b)[i])
  {
    if |b| > 0 {
      AsciiCharsAreAscii(b[1..]);
      assert Utf8.AsciiChars(b) == [(b[0] as int) as char] + Utf8.AsciiChars(b[1..]);
    }
  }

  /** Unquoting a prefix without `%` leaves that prefix alone. */
  lemma {:induction false} UnquoteBytesPrefix(x: seq<byte>, y: seq<byte>)
    requires PercentByte !in x
    ensures UnquoteBytes(x + y) == x + UnquoteBytes(y)
    decreases |x|
  {
    if |x| == 0 {
      assert x + y == y;
    } else {
      var x0, xs := x[0], x[1..];
      assert x + y == [x0] + (xs + y);
      UnquoteBytesCons(x0, xs + y);
      UnquoteBytesPrefix(xs, y);
      assert x == [x0] + xs;
      assert [x0] + (xs + UnquoteBytes(y)) == x + UnquoteBytes(y);
    }
  }

  /** Bytes without `%` are their own unquoting. */
  lemma UnquoteBytesWithoutPercent(b: seq<byte>)
    requires PercentByte !in b
    ensures UnquoteBytes(b) == b
  {
    UnquoteBytesPrefix(b, []);
    assert b + [] == b;
  }

  /** A byte other than `%` in front is copied. */
  lemma UnquoteBytesCons(c: byte, t: seq<byte>)
    requires c != PercentByte
    ensures UnquoteBytes([c] + t) == [c] + UnquoteBytes(t)
  {
    var s := [c] + t;
    assert s[0] == c && s[1..] == t;
  }

  /** `%20` becomes a space: in ASCII text that has no other `%`, the one
      escape is replaced and nothing else changes. */
  lemma UnquoteEscapedSpace(a: string, b: string)
    requires forall i :: 0 <= i < |a| ==> IsAsciiChar(a[i])
    requires forall i :: 0 <= i < |b| ==> IsAsciiChar(b[i])
    requires '%' !in a && '%' !in b
    ensures Unquote(a + "%20" + b) == a + " " + b
  {
    var s := a + "%20" + b;
    assert forall i :: 0 <= i < |s| ==> IsAsciiChar(s[i]);
    UnquoteAscii(s);
    var ea, eb := Utf8.Encode(a), Utf8.Encode(b);
    EncodeAround(a, "%20", b);
    EncodeAround(a, " ", b);
    Utf8.AsciiByteAbsent(a, '%');
    Utf8.AsciiByteAbsent(b, '%');
    UnquoteBytesPrefix(ea, Utf8.Encode("%20") + eb);
    UnquoteSpaceEscape(eb);
    Utf8.DecodeReplaceEncode(a + " " + b);
  }

  lemma EncodeAround(a: string, m: string, b: string)
    ensures Utf8.Encode(a + m + b) == Utf8.Encode(a) + (Utf8.Encode(m) + Utf8.Encode(b))
  {
    var ea, em, eb := Utf8.Encode(a), Utf8.Encode(m), Utf8.Encode(b);
    assert Utf8.Encode(a + m + b) == Utf8.Encode(a + m) + eb by {
      Utf8.EncodeAppend(a + m, b);
    }
    assert Utf8.Encode(a + m) == ea + em by {
      Utf8.EncodeAppend(a, m);
    }
    assert (ea + em) + eb == ea + (em + eb);
  }

  lemma UnquoteSpaceEscape(eb: seq<byte>)
    requires PercentByte !in eb
    ensures UnquoteBytes(Utf8.Encode("%20") + eb) == Utf8.Encode(" ") + eb
  {
    EscapeBytes();
    UnquoteEscapeThen(eb);
    UnquoteBytesWithoutPercent(eb);
  }

  /** The UTF-8 bytes of `%20` and of a space. */
  lemma EscapeBytes()
    ensures Utf8.Encode("%20") == [0x25, 0x32, 0x30]
    ensures Utf8.Encode(" ") == [0x20]
  {
    assert "%20"[1..] == "20" && "20"[1..] == "0" && "0"[1..] == "";
    assert " "[1..] == "";
  }

  /** The escape `%20` in front becomes the byte 0x20. */
  lemma UnquoteEscapeThen(eb: seq<byte>)
    ensures UnquoteBytes([0x25, 0x32, 0x30] + eb) == [0x20] + UnquoteBytes(eb)
  {
    var t: seq<byte> := [0x25, 0x32, 0x30] + eb;
    assert t[0] == PercentByte && t[1] == 0x32 && t[2] == 0x30;
    assert IsHexDigitByte(t[1]) && IsHexDigitByte(t[2]);
    assert HexValue(t[1]) * 16 + HexValue(t[2]) == 0x20;
    assert t[3..] == eb;
  }

  /** Hex digits of either case are decoded: the bytes of `%2f` unquote
      to the single byte 0x2F. */
  lemma LowerCaseEscape()
    ensures Utf8.Encode("%2f") == [0x25, 0x32, 0x66]
    ensures UnquoteBytes([0x25, 0x32, 0x66]) == [0x2F]
  {
    assert "%2f"[1..] == "2f" && "2f"[1..] == "f" && "f"[1..] == "";
    var t: seq<byte> := [0x25, 0x32, 0x66];
    assert IsHexDigitByte(t[1]) && IsHexDigitByte(t[2]);
    assert HexValue(t[1]) * 16 + HexValue(t[2]) == 0x2F;
    assert t[3..] == [];
  }

  /** A `%` that does not start an escape stays: the bytes of `100%`
      unquote to themselves. */
  lemma StrayPercent()
    ensures Utf8.Encode("100%") == [0x31, 0x30, 0x30, 0x25]
    ensures UnquoteBytes([0x31, 0x30, 0x30, 0x25]) == [0x31, 0x30, 0x30, 0x25]
  {
    assert "100%"[1..] == "00%" && "00%"[1..] == "0%" && "0%"[1..] == "%" && "%"[1..] == "";
    var t: seq<byte> := [0x31, 0x30, 0x30, 0x25];
    assert t[1..] == [0x30, 0x30, 0x25] && t[1..][1..] == [0x30, 0x25] && t[1..][1..][1..] == [0x25];
    assert t[1..][1..][1..][1..] == [];
  }
}

=== FILE: presign.dfy ===
/** The presign handler of `src/lambda/presign.py`. It also serves as the
    identity provider's pre-sign-up trigger, which it answers by returning
    the event. Otherwise it checks the bucket setting and the `file_name`
    query parameter and asks the signer for a one-hour download URL. The
    store is neither read nor written. */
module Presign {
  import opened Wrappers
  import opened Http

  /** The parts of the event the handler reads. */
  datatype Event = Event(triggerSource: Field<string>, queryStringParameters: Field<map<string, string>>)

  /** What the invocation returns: the event itself for a sign-up trigger,
      otherwise a proxy reply. */
  datatype Outcome = PassThrough(event: Event) | Replied(reply: Reply)

  /** boto3's `generate_presigned_url('get_object', Params={Bucket, Key},
      ExpiresIn)`, left as an oracle: a URL, or the exception it raised. */
  type Signer = (string, string, int) -> Result<string, PyError>

  /** The expiry the handler always asks for, in seconds. */
  const Expiration: int := 3600

  const TriggerPrefix := "PreSignUp_"
  const ParamMissing := "file_name query parameter is required"
  const SigningFailed := "Could not generate presigned URL"

  /** Lines 6-18: the URL, with any exception of the signer turned into
      `None`. */
  function GeneratePresignedUrl(sign: Signer, bucket: string, key: string, expiration: int := Expiration): (r: Option<string>)
    ensures r.Some? <==> sign(bucket, key, expiration).Success?
    ensures r.Some? ==> r.value == sign(bucket, key, expiration).value
  {
    match sign(bucket, key, expiration)
    case Success(url) => Some(url)
    case Failure(_) => None
  }

  /** `s.startswith(prefix)`. */
  predicate StartsWith(s: string, prefix: string) {
    |prefix| <= |s| && s[..|prefix|] == prefix
  }

  /** Line 24: the event is the identity provider's pre-sign-up trigger,
      whose source is `PreSignUp_` followed by anything at all. */
  predicate IsSignUpTrigger(e: Event): (b: bool)
    ensures b <==> e.triggerSource.Present? && exists rest :: e.triggerSource.value == TriggerPrefix + rest
  {
    if e.triggerSource.Present? && StartsWith(e.triggerSource.value, TriggerPrefix) then
      var v := e.triggerSource.value;
      assert v == TriggerPrefix + v[|TriggerPrefix|..];
      true
    else
      false
  }

  /** Line 46: `event.get('queryStringParameters', {}).get('file_name')`,
      whose `.get` on JSON `null` raises `AttributeError`. */
  function QueryFileName(e: Event): (r: Result<Option<string>, PyError>)
    ensures e.queryStringParameters.Null? <==> r.Failure?
    ensures r.Success? && r.value.Some? <==>
      e.queryStringParameters.Present? && "file_name" in e.queryStringParameters.value
    ensures r.Success? && r.value.Some? ==> r.value.value == e.queryStringParameters.value["file_name"]
  {
    match e.queryStringParameters
    case Null => Failure(AttributeError)
    case Absent => Success(None)
    case Present(params) => Success(if "file_name" in params then Some(params["file_name"]) else None)
  }

  /** A JSON response with the wildcard headers. */
  function Answer(status: int, extra: Pairs, body: Body): (r: Response)
    requires forall i :: 0 <= i < |extra| ==> !IsCorsName(extra[i].0)
    ensures r.statusCode == status && r.body == body && !r.isBase64Encoded
    ensures HasWildcardCors(r.headers)
    ensures forall i :: 0 <= i < |extra| ==> Lookup(r.headers, extra[i].0) == Lookup(extra, extra[i].0)
  {
    Response(status, CorsWith(extra), body, false)
  }

  /** `lambda_handler`. */
  function Handle(e: Event, bucket: Option<string>, sign: Signer): (r: Outcome)
    ensures IsSignUpTrigger(e) <==> r == PassThrough(e)
    ensures r.PassThrough? ==> r.event == e
    ensures r.Replied? && r.reply.Http? ==> HasWildcardCors(r.reply.response.headers)
    ensures r.Replied? && r.reply.Http? ==> r.reply.response.statusCode in {200, 400, 500}
    ensures r.Replied? && r.reply.Unhandled? <==>
      || e.triggerSource.Null?
      || (!IsSignUpTrigger(e) && bucket.Some? && bucket.value != "" && e.queryStringParameters.Null?)
    ensures !IsSignUpTrigger(e) && !e.triggerSource.Null? && (bucket.None? || bucket.value == "") ==>
      r.Replied? && r.reply.Http? && r.reply.response.statusCode == 500
      && r.reply.response.body == ErrorJson(Says(BucketMissing))
    ensures r.Replied? && r.reply.Http? && r.reply.response.statusCode == 400 <==>
      && !IsSignUpTrigger(e) && !e.triggerSource.Null?
      && bucket.Some? && bucket.value != ""
      && QueryFileName(e).Success? && (QueryFileName(e).value.None? || QueryFileName(e).value.value == "")
    ensures r.Replied? && r.reply.Http? && r.reply.response.statusCode == 400 ==>
      r.reply.response.body == ErrorJson(Says(ParamMissing))
    ensures (r.Replied? && r.reply.Http? && r.reply.response.statusCode == 500
             && r.reply.response.body != ErrorJson(Says(BucketMissing))) ==>
      && r.reply.response.body == ErrorJson(Says(SigningFailed))
      && QueryFileName(e).Success? && QueryFileName(e).value.Some?
      && sign(bucket.value, QueryFileName(e).value.value, Expiration).Failure?
    ensures r.Replied? && r.reply.Http? && r.reply.response.statusCode == 200 ==>
      && bucket.Some?
      && QueryFileName(e).Success? && QueryFileName(e).value.Some?
      && r.reply.response.body.UrlJson?
      && sign(bucket.value, QueryFileName(e).value.value, Expiration) == Success(r.reply.response.body.url)
      && Lookup(r.reply.response.headers, ContentType) == Some(JsonMediaType)
    ensures
      && !IsSignUpTrigger(e) && !e.triggerSource.Null?
      && bucket.Some? && bucket.value != ""
      && QueryFileName(e).Success? && QueryFileName(e).value.Some? && QueryFileName(e).value.value != ""
      && sign(bucket.value, QueryFileName(e).value.value, Expiration).Success?
      ==> r.Replied? && r.reply.Http? && r.reply.response.statusCode == 200
    ensures
      && !IsSignUpTrigger(e) && !e.triggerSource.Null?
      && bucket.Some? && bucket.value != ""
      && QueryFileName(e).Success? && QueryFileName(e).value.Some? && QueryFileName(e).value.value != ""
      && sign(bucket.value, QueryFileName(e).value.value, Expiration).Failure?
      ==> && r.Replied? && r.reply.Http? && r.reply.response.statusCode == 500
          && r.reply.response.body == ErrorJson(Says(SigningFailed))
  {
    if e.triggerSource.Null? then
      Replied(Unhandled(AttributeError))
    else if IsSignUpTrigger(e) then
      PassThrough(e)
    else if bucket.None? || bucket.value == "" then
      Replied(Http(Answer(500, [], ErrorJson(Says(BucketMissing)))))
    else
      match QueryFileName(e)
      case Failure(err) => Replied(Unhandled(err))
      case Success(name) =>
        if name.None? || name.value == "" then
          Replied(Http(Answer(400, [], ErrorJson(Says(ParamMissing)))))
        else
          match GeneratePresignedUrl(sign, bucket.value, name.value)
          case None => Replied(Http(Answer(500, [], ErrorJson(Says(SigningFailed)))))
          case Some(url) =>
            var extra := [(ContentType, JsonMediaType)];
            assert Lookup(extra, ContentType) == Some(JsonMediaType);
            Replied(Http(Answer(200, extra, UrlJson(url))))
  }

  /** The signer is consulted at one point only, the configured bucket, the
      query parameter exactly as given and 3600 seconds: signers that agree
      there give the same outcome. */
  lemma SignerConsultedOnce(e: Event, bucket: Option<string>, sign1: Signer, sign2: Signer)
    requires bucket.Some? && QueryFileName(e).Success? && QueryFileName(e).value.Some?
    requires sign1(bucket.value, QueryFileName(e).value.value, Expiration)
          == sign2(bucket.value, QueryFileName(e).value.value, Expiration)
    ensures Handle(e, bucket, sign1) == Handle(e, bucket, sign2)
  {
  }

  /** Without a bucket setting, and whatever the query says, the answer is
      the 500 about the bucket: that check comes before the parameter. */
  lemma BucketCheckFirst(e: Event, sign: Signer)
    requires !e.triggerSource.Null? && !IsSignUpTrigger(e)
    ensures Handle(e, None, sign) == Handle(e, Some(""), sign)
    ensures Handle(e, None, sign).Replied? && Handle(e, None, sign).reply.Http?
    ensures Handle(e, None, sign).reply.response.body == ErrorJson(Says(BucketMissing))
  {
  }
}

=== FILE: upload.dfy ===
/** The upload handler of `src/lambda/upload.py`: it takes the file name
    from the `file-name` header (any capitalisation), unwraps a body the
    transport base64-encoded, reads `file_content` from the JSON body,
    base64-decodes it and puts the bytes under the file name. Every
    exception becomes a 500 response with the wildcard cross-origin
    headers; the put is the handler's only effect. */
module Upload {
  import opened Wrappers
  import opened Bytes
  import opened Http
  import opened ObjectStore
  import Base64
  import Utf8

  /** The parts of the proxy event the handler reads. `isBase64Encoded`
      is read with `event.get(..., False)`; a missing key and `false` are
      alike. */
  datatype Event = Event(headers: Field<Pairs>, body: Field<string>, isBase64Encoded: bool)

  /** The `file_content` member of the parsed body, as far as the handler
      distinguishes it. `NotText(truthy)` is any other JSON value;
      `truthy` is its Python truth value. */
  datatype ContentField = NoContent | NotText(truthy: bool) | Text(text: string)

  /** What `json.loads` made of the body text. */
  datatype ParsedBody = NotJson | NotAnObject | JsonObject(fileContent: ContentField)

  /** JSON parsing is left to an oracle. */
  type Parser = string -> ParsedBody

  /** `str.lower` on the characters that can matter for the header lookup. */
  function LowerChar(c: char): (r: char)
    ensures 'A' <= c <= 'Z' ==> r as int == c as int + 32
    ensures !('A' <= c <= 'Z') ==> r == c
  {
    if 'A' <= c <= 'Z' then (c as int + 32) as char else c
  }

  function Lower(s: string): (r: string)
    ensures |r| == |s| && forall i :: 0 <= i < |s| ==> r[i] == LowerChar(s[i])
  {
    seq(|s|, i requires 0 <= i < |s| => LowerChar(s[i]))
  }

  /** Lowering twice lowers once. */
  lemma LowerTwice(s: string)
    ensures Lower(Lower(s)) == Lower(s)
  {
  }

  /** `{k.lower(): v for k, v in items}`: the same pairs in the same
      order, each name lower-cased and each value kept, so every name is
      already in lower case. Looking a name up in the result takes the
      last pair, as the comprehension's last assignment to a key wins. */
  function Normalize(headers: Pairs): (r: Pairs)
    ensures |r| == |headers|
    ensures forall i :: 0 <= i < |r| ==> r[i].0 == Lower(headers[i].0) && r[i].1 == headers[i].1
    ensures forall i :: 0 <= i < |r| ==> Lower(r[i].0) == r[i].0
  {
    forall s: string ensures Lower(Lower(s)) == Lower(s) { LowerTwice(s); }
    seq(|headers|, i requires 0 <= i < |headers| => (Lower(headers[i].0), headers[i].1))
  }

  /** Lines 14-18: the header value. The comprehension runs over the
      items of the dict `json.loads` made of the header object (each key at
      its first position, with its last value); the last item whose key
      lower-cases to `file-name` supplies the name. A missing or empty one
      is an error. */
  function FileName(e: Event): (r: Result<string, PyError>)
    ensures r.Success? ==> r.value != ""
    ensures e.headers.Null? ==> r == Failure(AttributeError)
    ensures e.headers.Absent? ==> r == Failure(ValueError("Missing file-name header"))
    ensures e.headers.Present? ==>
      (r.Success? <==> Lookup(Normalize(DictItems(e.headers.value)), FileNameHeader).Some?
                       && Lookup(Normalize(DictItems(e.headers.value)), FileNameHeader).value != "")
  {
    match e.headers
    case Null => Failure(AttributeError)
    case Absent => Failure(ValueError("Missing file-name header"))
    case Present(h) =>
      match Lookup(Normalize(DictItems(h)), FileNameHeader)
      case Some(name) => if name == "" then Failure(ValueError("Missing file-name header")) else Success(name)
      case None => Failure(ValueError("Missing file-name header"))
  }

  /** Lines 21-23: the JSON text. A body the transport flagged as base64 is
      decoded once, and its bytes read as UTF-8; any other body is taken as
      it is. */
  function BodyText(e: Event): (r: Result<string, PyError>)
    ensures e.body.Absent? ==> r == Failure(KeyError("body"))
    ensures e.body.Null? ==> r == Failure(TypeError)
    ensures e.body.Present? && !e.isBase64Encoded ==> r == Success(e.body.value)
    ensures e.body.Present? && e.isBase64Encoded && r.Success? ==>
      Base64.Decode(e.body.value) == Some(Utf8.Encode(r.value))
    ensures e.body.Present? && e.isBase64Encoded && Base64.Decode(e.body.value).None? ==> r == Failure(Base64Error)
    ensures
      && e.body.Present? && e.isBase64Encoded && Base64.Decode(e.body.value).Some?
      && Utf8.DecodeStrict(Base64.Decode(e.body.value).value).None?
      ==> r == Failure(UnicodeDecodeError)
  {
    match e.body
    case Absent => Failure(KeyError("body"))
    case Null => Failure(TypeError)
    case Present(s) =>
      if !e.isBase64Encoded then Success(s)
      else
        match Base64.Decode(s)
        case None => Failure(Base64Error)
        case Some(bytes) =>
          match Utf8.DecodeStrict(bytes)
          case None => Failure(UnicodeDecodeError)
          case Some(text) =>
            Utf8.EncodeDecodeStrict(bytes);
            Success(text)
  }

  /** Lines 26-33: the file's bytes from the parsed body. A missing,
      empty or otherwise false `file_content` is refused before decoding,
      so the result is never empty. */
  function FileContent(parsed: ParsedBody): (r: Result<seq<byte>, PyError>)
    ensures r.Success? ==> |r.value| > 0
    ensures r.Success? <==> parsed.JsonObject? && parsed.fileContent.Text? && Base64.Decode(parsed.fileContent.text).Some? && parsed.fileContent.text != ""
    ensures r.Success? ==> Base64.Encode(r.value) == parsed.fileContent.text
    ensures parsed == JsonObject(NoContent) ==> r == Failure(KeyError("file_content"))
    ensures parsed == JsonObject(Text("")) || parsed == JsonObject(NotText(false)) ==>
      r == Failure(ValueError("Missing file_content in body"))
  {
    match parsed
    case NotJson => Failure(JsonDecodeError)
    case NotAnObject => Failure(TypeError)
    case JsonObject(field) =>
      match field
      case NoContent => Failure(KeyError("file_content"))
      case NotText(truthy) =>
        if !truthy then Failure(ValueError("Missing file_content in body")) else Failure(TypeError)
      case Text(t) =>
        if t == "" then Failure(ValueError("Missing file_content in body"))
        else
          match Base64.Decode(t)
          case None => Failure(Base64Error)
          case Some(bytes) =>
            Base64.EncodeDecode(t);
            Success(bytes)
  }

  /** Lines 11-36 up to the put: the object key and the bytes to store. */
  function Prepare(e: Event, bucket: Option<string>, parse: Parser): (r: Result<(string, seq<byte>), PyError>)
    ensures bucket.None? ==> r == Failure(KeyError("BUCKET_NAME"))
    ensures bucket.Some? && FileName(e).Failure? ==> r == Failure(FileName(e).error)
    ensures r.Success? ==> FileName(e) == Success(r.value.0)
    ensures r.Success? ==> exists text :: BodyText(e) == Success(text) && FileContent(parse(text)) == Success(r.value.1)
    ensures bucket.Some? && FileName(e).Success? && BodyText(e).Failure? ==> r == Failure(BodyText(e).error)
    ensures bucket.Some? && FileName(e).Success? && BodyText(e).Success? ==>
      r == match FileContent(parse(BodyText(e).value))
           case Failure(err) => Failure(err)
           case Success(bytes) => Success((FileName(e).value, bytes))
  {
    var _ :- bucket.ToResult(KeyError("BUCKET_NAME"));
    var name :- FileName(e);
    var text :- BodyText(e);
    var bytes :- FileContent(parse(text));
    Success((name, bytes))
  }

  /** The error envelope of lines 53-62. */
  function ErrorResponse(e: PyError): (r: Response)
    ensures r.statusCode == 500 && HasWildcardCors(r.headers) && r.body == ErrorJson(StrOf(e))
    ensures Lookup(r.headers, ContentType) == Some(JsonMediaType)
  {
    var extra := [(ContentType, JsonMediaType)];
    assert Lookup(extra, ContentType) == Some(JsonMediaType);
    Response(500, CorsWith(extra), ErrorJson(StrOf(e)), false)
  }

  /** `lambda_handler`: a 200 response after exactly one put, or a 500
      response and an untouched store. */
  function Handle(e: Event, bucket: Option<string>, backend: Backend, parse: Parser, store: Store): (out: Outcome)
    ensures out.response.statusCode == 200 || out.response.statusCode == 500
    ensures HasWildcardCors(out.response.headers)
    ensures out.response.statusCode == 500 <==> out.response.body.ErrorJson?
    ensures out.response.statusCode == 500 ==> out.store == store
    ensures out.response.statusCode == 200 <==>
      Prepare(e, bucket, parse).Success? && bucket.value != "" && backend.Reachable?
    ensures out.response.statusCode == 200 ==>
      var (name, bytes) := Prepare(e, bucket, parse).value;
      && out.store == store[name := bytes]
      && out.response.body == UploadedJson(UploadedMessage, name)
    ensures Prepare(e, bucket, parse).Failure? ==>
      out == Outcome(ErrorResponse(Prepare(e, bucket, parse).error), store)
    ensures Prepare(e, bucket, parse).Success? ==>
      var (name, bytes) := Prepare(e, bucket, parse).value;
      var put := PutObject(store, backend, bucket.value, name, Some(bytes));
      put.Failure? ==> out == Outcome(ErrorResponse(put.error), store)
  {
    Commit(Prepare(e, bucket, parse), bucket, backend, store)
  }

  /** Lines 36-62 once the event has been read: the put, and the response
      for its outcome or for the error that came before it. */
  function Commit(prepared: Result<(string, seq<byte>), PyError>, bucket: Option<string>, backend: Backend, store: Store): (out: Outcome)
    requires prepared.Success? ==> bucket.Some? && prepared.value.0 != ""
    ensures out.response.statusCode == 200 || out.response.statusCode == 500
    ensures HasWildcardCors(out.response.headers)
    ensures out.response.statusCode == 500 <==> out.response.body.ErrorJson?
    ensures out.response.statusCode == 500 ==> out.store == store
    ensures out.response.statusCode == 200 <==> prepared.Success? && bucket.value != "" && backend.Reachable?
    ensures out.response.statusCode == 200 ==>
      && out.store == store[prepared.value.0 := prepared.value.1]
      && out.response.body == UploadedJson(UploadedMessage, prepared.value.0)
    ensures prepared.Failure? ==> out == Outcome(ErrorResponse(prepared.error), store)
    ensures prepared.Success? ==>
      var put := PutObject(store, backend, bucket.value, prepared.value.0, Some(prepared.value.1));
      put.Failure? ==> out == Outcome(ErrorResponse(put.error), store)
  {
    match prepared
    case Failure(err) => Outcome(ErrorResponse(err), store)
    case Success((name, bytes)) =>
      match PutObject(store, backend, bucket.value, name, Some(bytes))
      case Failure(err) => Outcome(ErrorResponse(err), store)
      case Success(store') =>
        WildcardCorsHolds();
        Outcome(Response(200, WildcardCors, UploadedJson(UploadedMessage, name), false), store')
  }

  /** The header is found under any capitalisation: among the header
      object's distinct keys, in the order they first appear, the last one
      that lower-cases to `file-name` supplies the file name, with the
      value that key was last given. */
  lemma {:induction false} FileNameAnyCase(e: Event, i: int)
    requires e.headers.Present? && 0 <= i < |Names(e.headers.value)|
    requires Lower(Names(e.headers.value)[i]) == FileNameHeader
    requires forall j :: i < j < |Names(e.headers.value)| ==> Lower(Names(e.headers.value)[j]) != FileNameHeader
    requires Lookup(e.headers.value, Names(e.headers.value)[i]) != Some("")
    ensures Lookup(e.headers.value, Names(e.headers.value)[i]).Some?
    ensures FileName(e) == Success(Lookup(e.headers.value, Names(e.headers.value)[i]).value)
  {
    var h := e.headers.value;
    var names := Names(h);
    var d := DictItems(h);
    assert Lookup(d, names[i]) == Some(d[i].1) by {
      LookupLast(d, i, names[i]);
    }
    var n := Normalize(d);
    LookupLast(n, i, FileNameHeader);
  }

  /** A header object that writes a key twice keeps the key where it was
      first written: of `File-Name: a`, `file-name: b`, `File-Name: c` the
      dict's items are `File-Name: c` then `file-name: b`, so the name is
      `b`. */
  lemma RepeatedHeaderKey()
    ensures FileName(Event(Present([("File-Name", "a"), ("file-name", "b"), ("File-Name", "c")]), Absent, false))
      == Success("b")
  {
    var h: Pairs := [("File-Name", "a"), ("file-name", "b"), ("File-Name", "c")];
    assert "File-Name"[0] != "file-name"[0];
    assert h[..1] == [("File-Name", "a")] && h[..2][..1] == h[..1] && h[..3] == h;
    assert Names(h[..1]) == ["File-Name"];
    assert Names(h[..2]) == ["File-Name", "file-name"];
    assert Names(h) == ["File-Name", "file-name"];
    assert Lookup(h, "file-name") == Some("b");
    LowerFileNameHeader();
    FileNameAnyCase(Event(Present(h), Absent, false), 1);
  }

  /** Without a header whose name lower-cases to `file-name` the upload
      fails with 500 and the store is left as it was. */
  lemma MissingFileNameFails(e: Event, bucket: Option<string>, backend: Backend, parse: Parser, store: Store)
    requires bucket.Some?
    requires e.headers.Absent? || (e.headers.Present? && forall j :: 0 <= j < |e.headers.value| ==> Lower(e.headers.value[j].0) != FileNameHeader)
    ensures Handle(e, bucket, backend, parse, store)
      == Outcome(ErrorResponse(ValueError("Missing file-name header")), store)
  {
    if e.headers.Present? {
      NoFileNameHeader(e.headers.value);
    }
  }

  /** Keys of the dict are keys of the object, so without a key that
      lower-cases to `file-name` the lookup finds nothing. */
  lemma NoFileNameHeader(h: Pairs)
    requires forall j :: 0 <= j < |h| ==> Lower(h[j].0) != FileNameHeader
    ensures Lookup(Normalize(DictItems(h)), FileNameHeader).None?
  {
    var names := Names(h);
    var n := Normalize(DictItems(h));
    forall j | 0 <= j < |n| ensures n[j].0 != FileNameHeader {
      assert names[j] in names;
      var k :| 0 <= k < |h| && h[k].0 == names[j];
    }
  }

  /** The transport wrapper is removed exactly once: a JSON text the
      transport wrapped as base64 of its UTF-8 bytes comes back unchanged,
      and an unflagged body is parsed as given. */
  lemma TransportUnwrap(headers: Field<Pairs>, json: string)
    ensures BodyText(Event(headers, Present(Base64.Encode(Utf8.Encode(json))), true)) == Success(json)
    ensures BodyText(Event(headers, Present(json), false)) == Success(json)
  {
    Base64.DecodeEncode(Utf8.Encode(json));
    Utf8.DecodeStrictEncode(json);
  }

  /** `file_content` carrying the base64 text of a non-empty file yields
      that file; for an empty file it is an empty string and is refused. */
  lemma FileContentOfEncoding(b: seq<byte>)
    ensures |b| > 0 ==> FileContent(JsonObject(Text(Base64.Encode(b)))) == Success(b)
    ensures |b| == 0 ==> FileContent(JsonObject(Text(Base64.Encode(b)))) == Failure(ValueError("Missing file_content in body"))
  {
    if |b| == 0 {
      assert Base64.Encode(b) == "";
    } else {
      NonEmptyFileContent(b);
    }
  }

  lemma NonEmptyFileContent(b: seq<byte>)
    requires |b| > 0
    ensures FileContent(JsonObject(Text(Base64.Encode(b)))) == Success(b)
  {
    var t := Base64.Encode(b);
    Base64.DecodeEncode(b);
    FileContentOfText(t, b);
  }

  lemma FileContentOfText(t: string, b: seq<byte>)
    requires t != "" && Base64.Decode(t) == Some(b)
    ensures FileContent(JsonObject(Text(t))) == Success(b)
  {
  }

  /** A well-formed upload succeeds: with the bucket set and S3
      reachable, a `file-name` header and a JSON body whose `file_content`
      is the base64 of a non-empty file give 200, and the store maps the
      name to the file's bytes. */
  lemma UploadSucceeds(name: string, t: string, b: seq<byte>, bn: string, parse: Parser, store: Store)
    requires name != "" && bn != "" && |b| > 0
    requires parse(t) == JsonObject(Text(Base64.Encode(b)))
    ensures Handle(Event(Present([(FileNameHeader, name)]), Present(t), false), Some(bn), Reachable, parse, store)
      == Outcome(Response(200, WildcardCors, UploadedJson(UploadedMessage, name), false), store[name := b])
  {
    var e := Event(Present([(FileNameHeader, name)]), Present(t), false);
    assert FileName(e) == Success(name) by {
      LowerFileNameHeader();
      FileNameAnyCase(e, 0);
    }
    assert FileContent(parse(t)) == Success(b) by {
      NonEmptyFileContent(b);
    }
    assert Prepare(e, Some(bn), parse) == Success((name, b));
  }

  lemma LowerFileNameHeader()
    ensures Lower(FileNameHeader) == FileNameHeader
  {
    var h := FileNameHeader;
    assert forall i :: 0 <= i < |h| ==> !('A' <= h[i] <= 'Z');
  }

  /** Without the bucket setting the answer is the error envelope whose
      text is `str(KeyError('BUCKET_NAME'))`, the key in quotes, and
      nothing is stored. */
  lemma MissingBucketMessage(e: Event, backend: Backend, parse: Parser, store: Store)
    ensures var out := Handle(e, None, backend, parse, store);
      && out == Outcome(ErrorResponse(KeyError("BUCKET_NAME")), store)
      && out.response.body.error.StrOf?
      && ErrorString(out.response.body.error.error) == Some("'BUCKET_NAME'")
  {
    assert "'" + "BUCKET_NAME" + "'" == "'BUCKET_NAME'";
  }

  /** A successful upload stores a non-empty object (under the canonical
      decoding of `file_content`; see the notes on `Base64.Decode`). */
  lemma NoEmptyFileStored(e: Event, bucket: Option<string>, backend: Backend, parse: Parser, store: Store)
    requires Handle(e, bucket, backend, parse, store).response.statusCode == 200
    ensures var out := Handle(e, bucket, backend, parse, store);
      exists name :: name in out.store && |out.store[name]| > 0 && out.store == store[name := out.store[name]]
  {
    var (name, bytes) := Prepare(e, bucket, parse).value;
    var out := Handle(e, bucket, backend, parse, store);
    var text :| BodyText(e) == Success(text) && FileContent(parse(text)) == Success(bytes);
    assert out.store == store[name := bytes];
  }
}

=== FILE: utf8.dfy ===
/** UTF-8 (RFC 3629) between Dafny strings (sequences of Unicode scalar
    values) and bytes. The gateway meets it three times: the transport
    unwrap decodes the unwrapped body strictly, percent-decoding decodes the
    recovered bytes with U+FFFD substitution, and the object store receives
    a text body as its UTF-8 bytes. */
module Utf8 {
  import opened Wrappers
  import opened Bytes

  /** U+FFFD, which a replacing decoder emits for each ill-formed piece. */
  const Replacement: char := 0xFFFD as char

  /** Bytes in 0x00..0x7F are ASCII and stand for themselves. */
  predicate IsAsciiByte(b: byte) {
    b < 0x80
  }

  /** The scalar value `c` as UTF-8: 1 to 4 bytes, the lead byte carrying
      the length and every later byte of the form 10xxxxxx. */
  function EncodeChar(c: char): (r: seq<byte>)
    ensures 1 <= |r| <= 4
    ensures |r| == 1 <==> (c as int) < 0x80
  {
    var n := c as int;
    if n < 0x80 then
      [n as byte]
    else if n < 0x800 then
      [(0xC0 + n / 64) as byte, (0x80 + n % 64) as byte]
    else if n < 0x10000 then
      [(0xE0 + n / 4096) as byte, (0x80 + n / 64 % 64) as byte, (0x80 + n % 64) as byte]
    else
      [(0xF0 + n / 0x40000) as byte, (0x80 + n / 4096 % 64) as byte,
       (0x80 + n / 64 % 64) as byte, (0x80 + n % 64) as byte]
  }

  /** Python's `str.encode('utf-8')`. */
  function Encode(s: string): (r: seq<byte>)
    ensures |s| <= |r| <= 4 * |s|
  {
    if |s| == 0 then [] else EncodeChar(s[0]) + Encode(s[1..])
  }

  /** What a decoder makes of the bytes at the front of its input: one scalar
      value, or the maximal ill-formed prefix it must replace as a whole. */
  datatype Step = Scalar(c: char, width: nat) | Malformed(width: nat)

  /** Byte `i` of `b` exists and lies in `lo..hi`. */
  predicate ByteIn(b: seq<byte>, i: nat, lo: int, hi: int) {
    i < |b| && lo <= b[i] as int <= hi
  }

  /** The first step of decoding `b`, following the well-formed byte
      sequences of Table 3-7 of the Unicode Standard: a lead byte that can
      start nothing is malformed alone, and a truncated or interrupted
      sequence is malformed up to the last byte that still fitted. */
  function DecodeFirst(b: seq<byte>): (r: Step)
    requires |b| > 0
    ensures 1 <= r.width <= |b| && r.width <= 4
    ensures r.width == 1 && r.Scalar? <==> IsAsciiByte(b[0])
  {
    var b0 := b[0] as int;
    if b0 < 0x80 then
      Scalar(b0 as char, 1)
    else if b0 < 0xC2 then
      Malformed(1)
    else if b0 < 0xE0 then
      if ByteIn(b, 1, 0x80, 0xBF) then
        Scalar(((b0 - 0xC0) * 64 + (b[1] as int - 0x80)) as char, 2)
      else
        Malformed(1)
    else if b0 < 0xF0 then
      var lo := if b0 == 0xE0 then 0xA0 else 0x80;
      var hi := if b0 == 0xED then 0x9F else 0xBF;
      if !ByteIn(b, 1, lo, hi) then Malformed(1)
      else if !ByteIn(b, 2, 0x80, 0xBF) then Malformed(2)
      else
        Scalar(((b0 - 0xE0) * 4096 + (b[1] as int - 0x80) * 64 + (b[2] as int - 0x80)) as char, 3)
    else if b0 < 0xF5 then
      var lo := if b0 == 0xF0 then 0x90 else 0x80;
      var hi := if b0 == 0xF4 then 0x8F else 0xBF;
      if !ByteIn(b, 1, lo, hi) then Malformed(1)
      else if !ByteIn(b, 2, 0x80, 0xBF) then Malformed(2)
      else if !ByteIn(b, 3, 0x80, 0xBF) then Malformed(3)
      else
        Scalar(((b0 - 0xF0) * 0x40000 + (b[1] as int - 0x80) * 4096
                + (b[2] as int - 0x80) * 64 + (b[3] as int - 0x80)) as char, 4)
    else
      Malformed(1)
  }

  /** Python's `bytes.decode('utf-8')`: `None` where Python raises
      `UnicodeDecodeError`. */
  function DecodeStrict(b: seq<byte>): (r: Option<string>)
    ensures r.Some? ==> |r.value| <= |b|
    decreases |b|
  {
    if |b| == 0 then Some([])
    else
      match DecodeFirst(b)
      case Malformed(_) => None
      case Scalar(c, w) =>
        match DecodeStrict(b[w..])
        case None => None
        case Some(rest) => Some([c] + rest)
  }

  /** Python's `bytes.decode('utf-8', 'replace')`: every maximal ill-formed
      piece becomes one U+FFFD. */
  function DecodeReplace(b: seq<byte>): (r: string)
    ensures |r| <= |b|
    decreases |b|
  {
    if |b| == 0 then []
    else
      match DecodeFirst(b)
      case Malformed(w) => [Replacement] + DecodeReplace(b[w..])
      case Scalar(c, w) => [c] + DecodeReplace(b[w..])
  }

  /** Decoding the encoding of one scalar value gives that value back and
      consumes exactly its bytes, whatever follows. */
  lemma DecodeFirstOfEncodeChar(c: char, rest: seq<byte>)
    ensures DecodeFirst(EncodeChar(c) + rest) == Scalar(c, |EncodeChar(c)|)
  {
    var n := c as int;
    if n < 0x80 {
    } else if n < 0x800 {
      DecodeFirstOfTwo(c, rest);
    } else if n < 0x10000 {
      DecodeFirstOfThree(c, rest);
    } else {
      DecodeFirstOfFour(c, rest);
    }
  }

  lemma DecodeFirstOfTwo(c: char, rest: seq<byte>)
    requires 0x80 <= c as int < 0x800
    ensures DecodeFirst(EncodeChar(c) + rest) == Scalar(c, 2)
  {
    var n := c as int;
    var e := EncodeChar(c) + rest;
    var d0, d1 := n / 64, n % 64;
    assert d0 * 64 + d1 == n && 2 <= d0 < 32 && 0 <= d1 < 64;
    assert e[0] as int == 0xC0 + d0 && e[1] as int == 0x80 + d1;
  }

  lemma DecodeFirstOfThree(c: char, rest: seq<byte>)
    requires 0x800 <= c as int < 0x10000
    ensures DecodeFirst(EncodeChar(c) + rest) == Scalar(c, 3)
  {
    var n := c as int;
    var e := EncodeChar(c) + rest;
    var d0, d1, d2 := n / 4096, n / 64 % 64, n % 64;
    assert n / 64 == d0 * 64 + d1;
    assert d0 * 4096 + d1 * 64 + d2 == n && 0 <= d0 < 16 && 0 <= d1 < 64 && 0 <= d2 < 64;
    assert d0 == 0 ==> d1 >= 32;
    assert d0 == 13 ==> d1 < 32;
    assert e[0] as int == 0xE0 + d0 && e[1] as int == 0x80 + d1 && e[2] as int == 0x80 + d2;
  }

  lemma DecodeFirstOfFour(c: char, rest: seq<byte>)
    requires 0x10000 <= c as int
    ensures DecodeFirst(EncodeChar(c) + rest) == Scalar(c, 4)
  {
    var n := c as int;
    var e := EncodeChar(c) + rest;
    var d0, d1, d2, d3 := n / 0x40000, n / 4096 % 64, n / 64 % 64, n % 64;
    assert n / 4096 == d0 * 64 + d1;
    assert n / 64 == (d0 * 64 + d1) * 64 + d2;
    assert d0 * 0x40000 + d1 * 4096 + d2 * 64 + d3 == n;
    assert 0 <= d0 <= 4 && 0 <= d1 < 64 && 0 <= d2 < 64 && 0 <= d3 < 64;
    assert d0 == 0 ==> d1 >= 16;
    assert d0 == 4 ==> d1 < 16;
    assert e[0] as int == 0xF0 + d0 && e[1] as int == 0x80 + d1;
    assert e[2] as int == 0x80 + d2 && e[3] as int == 0x80 + d3;
  }

  /** Conversely a scalar value decoded from the front of `b` is encoded by
      exactly the bytes it was decoded from: UTF-8 has one spelling for
      each scalar value. */
  lemma EncodeCharOfDecodeFirst(b: seq<byte>)
    requires |b| > 0 && DecodeFirst(b).Scalar?
    ensures EncodeChar(DecodeFirst(b).c) == b[..DecodeFirst(b).width]
  {
    var w := DecodeFirst(b).width;
    if w == 2 {
      EncodeCharOfTwo(b);
    } else if w == 3 {
      EncodeCharOfThree(b);
    } else if w == 4 {
      EncodeCharOfFour(b);
    }
  }

  lemma EncodeCharOfTwo(b: seq<byte>)
    requires |b| > 0 && DecodeFirst(b).Scalar? && DecodeFirst(b).width == 2
    ensures EncodeChar(DecodeFirst(b).c) == b[..2]
  {
    var n := DecodeFirst(b).c as int;
    var d0, d1 := b[0] as int - 0xC0, b[1] as int - 0x80;
    assert n == d0 * 64 + d1 && 0 <= d1 < 64 && 2 <= d0 < 32;
    assert n / 64 == d0 && n % 64 == d1;
  }

  lemma EncodeCharOfThree(b: seq<byte>)
    requires |b| > 0 && DecodeFirst(b).Scalar? && DecodeFirst(b).width == 3
    ensures EncodeChar(DecodeFirst(b).c) == b[..3]
  {
    var n := DecodeFirst(b).c as int;
    var d0, d1, d2 := b[0] as int - 0xE0, b[1] as int - 0x80, b[2] as int - 0x80;
    assert n == d0 * 4096 + d1 * 64 + d2;
    assert 0 <= d0 < 16 && 0 <= d1 < 64 && 0 <= d2 < 64;
    assert n / 64 == d0 * 64 + d1 && n % 64 == d2;
    assert n / 4096 == d0 && n / 64 % 64 == d1;
  }

  lemma EncodeCharOfFour(b: seq<byte>)
    requires |b| > 0 && DecodeFirst(b).Scalar? && DecodeFirst(b).width == 4
    ensures EncodeChar(DecodeFirst(b).c) == b[..4]
  {
    var n := DecodeFirst(b).c as int;
    var d0, d1 := b[0] as int - 0xF0, b[1] as int - 0x80;
    var d2, d3 := b[2] as int - 0x80, b[3] as int - 0x80;
    assert n == d0 * 0x40000 + d1 * 4096 + d2 * 64 + d3;
    assert 0 <= d0 <= 4 && 0 <= d1 < 64 && 0 <= d2 < 64 && 0 <= d3 < 64;
    assert n % 64 == d3 && n / 64 == d0 * 4096 + d1 * 64 + d2;
    assert n / 4096 == d0 * 64 + d1 && n / 0x40000 == d0;
    assert n / 64 % 64 == d2 && n / 4096 % 64 == d1;
  }

  /** Strict decoding undoes encoding, for every string. */
  lemma {:induction false} DecodeStrictEncode(s: string)
    ensures DecodeStrict(Encode(s)) == Some(s)
  {
    if |s| > 0 {
      var e := Encode(s);
      DecodeFirstOfEncodeChar(s[0], Encode(s[1..]));
      assert e[|EncodeChar(s[0])|..] == Encode(s[1..]);
      DecodeStrictEncode(s[1..]);
      assert [s[0]] + s[1..] == s;
    }
  }

  /** Replacing decoding also undoes encoding: well-formed input never
      triggers a replacement. */
  lemma {:induction false} DecodeReplaceEncode(s: string)
    ensures DecodeReplace(Encode(s)) == s
  {
    if |s| > 0 {
      var e := Encode(s);
      DecodeFirstOfEncodeChar(s[0], Encode(s[1..]));
      assert e[|EncodeChar(s[0])|..] == Encode(s[1..]);
      DecodeReplaceEncode(s[1..]);
      assert [s[0]] + s[1..] == s;
    }
  }

  /** Whatever strict decoding accepts is the encoding of what it returns,
      so strict decoding and encoding are mutually inverse. */
  lemma {:induction false} EncodeDecodeStrict(b: seq<byte>)
    requires DecodeStrict(b).Some?
    ensures Encode(DecodeStrict(b).value) == b
    decreases |b|
  {
    if |b| > 0 {
      var w := DecodeStrictFirst(b);
      var c, tail := DecodeFirst(b).c, DecodeStrict(b[w..]).value;
      EncodeDecodeStrict(b[w..]);
      EncodeCharOfDecodeFirst(b);
      Reassemble(b, w, c, tail);
    }
  }

  /** Strict decoding of non-empty input that succeeds: a scalar value of
      width `w` in front of the decoding of the rest. */
  lemma DecodeStrictFirst(b: seq<byte>) returns (w: nat)
    requires |b| > 0 && DecodeStrict(b).Some?
    ensures DecodeFirst(b).Scalar? && w == DecodeFirst(b).width && w <= |b|
    ensures DecodeStrict(b[w..]).Some?
    ensures DecodeStrict(b).value == [DecodeFirst(b).c] + DecodeStrict(b[w..]).value
  {
    w := DecodeFirst(b).width;
  }

  /** Encodings of a character and of a string that match the two parts
      of `b` make up `b`. */
  lemma Reassemble(b: seq<byte>, w: nat, c: char, tail: string)
    requires w <= |b| && EncodeChar(c) == b[..w] && Encode(tail) == b[w..]
    ensures Encode([c] + tail) == b
  {
    EncodeCons(c, tail);
    assert b[..w] + b[w..] == b;
  }

  /** Encoding one character in front of a string. */
  lemma EncodeCons(c: char, t: string)
    ensures Encode([c] + t) == EncodeChar(c) + Encode(t)
  {
    assert ([c] + t)[0] == c;
    assert ([c] + t)[1..] == t;
  }

  /** Where strict decoding succeeds, the replacing decoder agrees with it. */
  lemma {:induction false} DecodeReplaceAgreesWithStrict(b: seq<byte>)
    requires DecodeStrict(b).Some?
    ensures DecodeReplace(b) == DecodeStrict(b).value
    decreases |b|
  {
    if |b| > 0 {
      DecodeReplaceAgreesWithStrict(b[DecodeFirst(b).width..]);
    }
  }

  /** Encoding distributes over concatenation. */
  lemma {:induction false} EncodeAppend(a: string, b: string)
    ensures Encode(a + b) == Encode(a) + Encode(b)
    decreases |a|
  {
    if |a| == 0 {
      assert a + b == b;
    } else {
      assert (a + b)[0] == a[0];
      assert (a + b)[1..] == a[1..] + b;
      EncodeAppend(a[1..], b);
    }
  }

  /** An ASCII character that does not occur in `s` has no byte of the same
      value in `s`'s encoding: every byte of a multi-byte sequence is 0x80
      or above. */
  lemma {:induction false} AsciiByteAbsent(s: string, c: char)
    requires (c as int) < 0x80 && c !in s
    ensures (c as int) as byte !in Encode(s)
  {
    if |s| > 0 {
      AsciiByteAbsent(s[1..], c);
      assert c != s[0];
    }
  }

  /** ASCII text encodes to one byte per character. */
  lemma {:induction false} EncodeAsciiLength(s: string)
    requires forall i :: 0 <= i < |s| ==> (s[i] as int) < 0x80
    ensures |Encode(s)| == |s|
    decreases |s|
  {
    if |s| > 0 {
      EncodeAsciiLength(s[1..]);
    }
  }

  /** ASCII bytes read as the characters with the same codes. */
  function AsciiChars(b: seq<byte>): (s: string)
    requires forall i :: 0 <= i < |b| ==> IsAsciiByte(b[i])
    ensures |s| == |b|
  {
    if |b| == 0 then [] else [(b[0] as int) as char] + AsciiChars(b[1..])
  }

  /** Reading ASCII bytes as characters and encoding them again gives the
      same bytes. */
  lemma {:induction false} EncodeAsciiChars(b: seq<byte>)
    requires forall i :: 0 <= i < |b| ==> IsAsciiByte(b[i])
    ensures Encode(AsciiChars(b)) == b
  {
    if |b| > 0 {
      var c := (b[0] as int) as char;
      assert Encode(AsciiChars(b[1..])) == b[1..] by {
        EncodeAsciiChars(b[1..]);
      }
      assert AsciiChars(b) == [c] + AsciiChars(b[1..]);
      assert EncodeChar(c) == [b[0]];
      EncodeCons(c, AsciiChars(b[1..]));
      assert [b[0]] + b[1..] == b;
    }
  }
}

=== FILE: wrappers.dfy ===
/** Failure-carrying datatypes shared by every module of the gateway model. */
module Wrappers {

  /** A value that may be missing: a Python `None`, an unset environment
      variable, a failed decode. */
  datatype Option<+T> = None | Some(value: T) {

    predicate IsFailure() {
      None?
    }

    function PropagateFailure<U>(): Option<U>
      requires None?
    {
      None
    }

    function Extract(): T
      requires Some?
    {
      value
    }

    /** A missing value as the failure `error`. */
    function ToResult<E>(error: E): Result<T, E> {
      match this
      case Some(v) => Success(v)
      case None => Failure(error)
    }
  }

  /** A computation that either produced a value or raised an error `E`. */
  datatype Result<+R, +E> = Success(value: R) | Failure(error: E) {

    predicate IsFailure() {
      Failure?
    }

    function PropagateFailure<U>(): Result<U, E>
      requires Failure?
    {
      Failure(error)
    }

    function Extract(): R
      requires Success?
    {
      value
    }
  }
}

/** Octets, as the object store and the codecs see them. */
module Bytes {

  /** One octet, 0x00..0xFF. */
  newtype byte = b: int | 0 <= b < 0x100
}
